=== FILE: README.md ===
# Channel-analysis pipeline: a Dafny model

This project models the core of a Telegram bot. The bot analyses the audience of a channel in four steps:

1. **Enumerate the members.** It runs a capped participant search over an alphabet of one-character queries. A query that returned a full page escalates to two-character "bigram" queries. Newly seen users are stored with insert-ignore statements.
2. **Summarise each member.** Every member's message history is summarised by a language model under a token budget. This moves the member's profile from `pending` to `done` or `no_data`.
3. **Poll.** A poller waits until parsing is complete and nothing is pending.
4. **Report.** It delivers the channel report and stores it at most once, guarded by a compare-and-set on `report_generated_at`. Delivery comes before the compare-and-set, so a repeated run may deliver again, but it never overwrites the stored report.

Everything outside the bot's own logic becomes a parameter of the model:

- the search service: a function from (query, offset) to a response;
- the summariser trigger: a function from payload to success;
- the profile read and update, the message-history query, the model's reply, the tokenizer and the clock: the `Oracles` record;
- the chat posts and the CSV upload.

The Dafny modules follow the source files:

| module | file | models |
|---|---|---|
| `Common` | common.dfy | optional values, concatenation of batches, the fixed-size slicing loop used for every insert and dispatch |
| `Schema` | schema.dfy | `channels`, `user_profiles`, `channel_members`: keys, defaults, insert-ignore statements |
| `Search` | search.dfy | the search service and `parseQuery` of `parseMembersTask.ts` / `parseAndSaveMembers.ts` |
| `ParseMembers` | parse_members.dfy | the alphabet + bigram driver of both files, and the `parsing_complete` latch |
| `ParseAndSummarize` | parse_and_summarize.dfy | the variant crawler of `parseAndSummarizeChannel.ts` |
| `Summarize` | summarize.dfy | `limitStructuredInput`, `summarizeOneUser`, the `allSettled` batch |
| `PendingBatch` | pending_batch.dfy | `summarizePendingBatch` |
| `Orchestrator` | orchestrator.dfy | `monitorChannelAnalysis` and the loop of `startChannelAnalysis` |
| `Report` | report.dfy | `generateFinalChannelReport`: early exits, the latch, `splitTextIntoChunks`, `sendLongMessage`, `mapGender` |

The store is one immutable value `Store(channels, profiles, members)`:

- `profiles` is a map keyed by `user_id`, because a profile is global and not per channel.
- `members` is the `channel_members` table as a sequence in insertion order. The pending-selection join has no `ORDER BY`; the model fixes one order for it, the insertion order.
- The declaration of `channels` (src/db/schema.ts:22-29) lacks the `parsing_complete`, `report_generated_at` and `report_text` columns. The tasks read and write them, so the model's `Channel` record has them.

## Model

| member | source | states |
|---|---|---|
| `Common.Chunk` | src/trigger/jobs/parseMembersTask.ts:121-129 | the batches concatenate back to the input in order; each holds 1 to `size` rows; only the last may be short; there are no batches exactly when the input is empty |
| `Schema.NewProfile` | src/db/schema.ts:72-76 | a new profile carries the row's id, status "pending", `is_summarized` false, `summarized_at` null, and no traits |
| `Schema.InsertProfiles` | src/db/schema.ts:51-52 | insert-ignore on the primary key `user_id`: the key set becomes old keys ∪ row ids; every existing profile is kept as it was; every new one is pending and unsummarised |
| `Schema.InsertMembers` | src/db/schema.ts:79-89 | insert-ignore on (channel_id, user_id): existing rows are a prefix of the result; the row set becomes old ∪ inserted; uniqueness of the key is preserved |
| `Schema.InsertProfilesIdempotent` | src/db/schema.ts:51-52 | repeating a profile insert leaves exactly the table one insert leaves |
| `Schema.InsertMembersIdempotent` | src/db/schema.ts:86-88 | repeating a membership insert of existing pairs is a no-op |
| `Schema.InsertProfileBatches` | src/trigger/jobs/parseMembersTask.ts:120-124 | one insert per batch, in order, has the same effect as one insert of the concatenated batches |
| `Schema.InsertMemberBatches` | src/trigger/jobs/parseMembersTask.ts:126-129 | the same for membership batches |
| `Search.Users` | src/trigger/jobs/parseAndSummarizeChannel.ts:111-112 | exactly the `Api.User` entries of a page are kept; other user kinds are skipped |
| `Search.NewUsers` | src/trigger/jobs/parseMembersTask.ts:102-104 | a user is kept iff it is an `Api.User` of the page whose id is not in `seen` |
| `Search.NewUserIds` | src/trigger/jobs/parseMembersTask.ts:132-134 | adding the page's ids to `seen` adds exactly the ids of the new users |
| `Search.SaveUsers` | src/trigger/jobs/parseMembersTask.ts:108-130 | the page transaction adds exactly the given users: channels and existing profiles untouched; new ids get pending profiles; memberships become old ∪ (channel × ids); uniqueness kept |
| `Search.ParseQueryFrom` | src/services/parseAndSaveMembers.ts:58-110 | for the paging loop from any offset: `seen` grows by exactly the processed pages' ids; the flag is set iff it was set or a processed page was full; pages come from the search at offsets advanced by raw page length; every page had an unseen user; all pages but the last were full; the store gained exactly the unseen users; the stop reason matches the response at the next offset, and paging stops as a short page exactly when the last processed page was short |
| `Search.ParseQuery` | src/trigger/jobs/parseMembersTask.ts:72-144 | the same facts from offset 0 with the flag clear; the flag is true iff some processed page (each holding a new user) had at least 100 entries; paging ends on a non-participants response, a page without unseen users, a short page (and a short last page always ends it so), or an exception |
| `ParseMembers.StartingWith` | src/trigger/jobs/parseMembersTask.ts:43 | a bigram is kept iff it starts with the symbol; the kept bigrams keep file order |
| `ParseMembers.SubQueries` | src/services/parseAndSaveMembers.ts:30-35 | the bigram queries are the first min(limit, matching) bigrams that start with the symbol, in file order |
| `ParseMembers.RunEach` | src/trigger/jobs/parseMembersTask.ts:44-47 | a bigram loop that gets through issued exactly the given queries, in order, none failed or exhausted; one that aborts logged such a query last and none before it; every logged step replays its query on the state the steps before it left |
| `ParseMembers.WalksTrans` | src/trigger/jobs/parseMembersTask.ts:37-49 | a stretch of the walk that went on, followed by another stretch, is one stretch: the logs join, the replays chain, and an abort in the second stretch is still the first failed query of the whole |
| `ParseMembers.SymbolPass` | src/trigger/jobs/parseMembersTask.ts:40-48 | one symbol issues its own query first, then exactly its bigram queries, in order, if and only if that query escalated; every logged step is what its query returned on the state the steps before it left; a walk that goes on logged no failed or exhausted query, and a walk that aborts logged such a query as its last step and none before it; `seen` only grows; rows are only added |
| `ParseMembers.WalkSymbols` | src/trigger/jobs/parseMembersTask.ts:37-49 | the log of a walk that gets through is, symbol by symbol, the symbol's query followed by its bigram queries exactly when it escalated, and no query in it failed; an aborted walk stops at its first failed or exhausted query, which is its last logged step; for every walk, completed or aborted, each logged step's flag and stop reason are what its query returned on the seen set and store the steps before it left, and the walk ends in the state the last one left; `seen` only grows; the store only gains rows and keeps channels |
| `ParseMembers.ReplaysSave` | src/trigger/jobs/parseMembersTask.ts:37-134 | a replayed sequence of `parseQuery` calls saved exactly the users it added to `seen`: new pending profiles for them, memberships in the channel, nothing else |
| `ParseMembers.SetParsingComplete` | src/trigger/jobs/parseMembersTask.ts:53-55 | the flag of the given channel becomes true; no other column or channel changes; a missing channel changes nothing |
| `ParseMembers.ParseMembersTask` | src/trigger/jobs/parseMembersTask.ts:23-58 | the log replays `parseQuery` from an empty seen set on the initial store, step by step, and the run saved exactly the users it saw; `parsing_complete` is written only by a completed run, whose log issues every alphabet symbol with its bigrams after each escalated symbol and holds no failed or exhausted query, and then `channels` is exactly the old table with that flag set; a channel run completes if and only if no logged query threw or ran out of pages, and an incomplete one stops right after the first such query; a failed or rejected run leaves channels untouched; the flag is never cleared; other channels never change; existing rows are kept |
| `ParseMembers.NoFuelNoLatch` | src/trigger/jobs/parseMembersTask.ts:37-55 | a run that cannot finish its first query never completes and never sets `parsing_complete` |
| `ParseMembers.CompletedRunQueriesAlphabet` | src/trigger/jobs/parseMembersTask.ts:37-55 | a completed run queried every alphabet symbol |
| `ParseMembers.ParseAndSaveMembers` | src/services/parseAndSaveMembers.ts:20-39 | the same walk: the log replays `parseQuery` step by step from an empty seen set, the store gained exactly the users seen, a completed log has the alphabet shape with no failed query; a channel run completes if and only if no logged query threw or ran out of pages, and an incomplete one ends at the first such query; `channels` is never written; a non-channel entity changes nothing; existing rows are kept |
| `ParseAndSummarize.DispatchPage` | src/trigger/jobs/parseAndSummarizeChannel.ts:164-173 | the payloads are the page's users in batches of at most 100, which concatenate back to all of them in order; each batch's outcome is the trigger's answer for that batch alone |
| `ParseAndSummarize.ScanQueryFrom` | src/trigger/jobs/parseAndSummarizeChannel.ts:97-190 | `seen` and `found` grow by exactly the users of the completed pages, with no seen filter; the flag is set iff it was set or a page was full; offsets advance by raw page length; the store gained exactly those users; the summariser was offered all of them in order in batches of 1 to 100; an exception ends paging at the failed page; paging stops as a short page exactly when the last completed page was short |
| `ParseAndSummarize.ScanQuery` | src/trigger/jobs/parseAndSummarizeChannel.ts:75-193 | the same facts from offset 0, `found` 0 and the flag clear |
| `ParseAndSummarize.EmptyFirstPage` | src/trigger/jobs/parseAndSummarizeChannel.ts:181-183 | an empty first page ends the query without escalation, with nothing found or dispatched and the store exactly as it was |
| `ParseAndSummarize.ScanSymbol` | src/trigger/jobs/parseAndSummarizeChannel.ts:42-56 | a symbol's bigram queries are issued if and only if its query escalated, and each logged step, dispatch and state change is what its scan returned on the state the steps before it left |
| `ParseAndSummarize.ScanSymbols` | src/trigger/jobs/parseAndSummarizeChannel.ts:39-57 | the log added by the alphabet loop is, symbol by symbol, the symbol's query followed by its bigram queries exactly when its scan escalated; it replays the scans from the starting state, with their dispatches in order; `seen` only grows and the store only gains rows |
| `ParseAndSummarize.ParseAndSummarizeChannel` | src/trigger/jobs/parseAndSummarizeChannel.ts:13-62 | a non-channel entity is an error; otherwise the log has the alphabet shape (every symbol queried, bigrams exactly after escalated symbols, an exception never escaping a query), and the log, the dispatches and the final store replay the scans from an empty seen set on the initial store; `channels`, and so `parsing_complete`, is never written; existing rows are kept |
| `Summarize.Packed` | src/trigger/jobs/summarizeUserBatch.ts:47-60 | the packing is a prefix of the items, costs at most the budget, stops at the first item that would overflow it, and is everything when everything fits |
| `Summarize.PackedIsLongestFit` | src/trigger/jobs/summarizeUserBatch.ts:51-57 | no longer prefix fits the budget |
| `Summarize.PackedUnique` | src/trigger/jobs/summarizeUserBatch.ts:51-57 | fitting and stopping at the first overflow determine the packing |
| `Summarize.LimitStructuredInput` | src/trigger/jobs/summarizeUserBatch.ts:47-60 | the loop with its running total and `break` returns the packing: a prefix of the mapped rows, in order, within the budget |
| `Summarize.SummarizeOneUser` | src/trigger/jobs/summarizeUserBatch.ts:62-135 | only the user's own row may change; it changes iff it exists, is not `done`/`no_data`, and the profile read, the history query and the final update all succeeded, with the history empty or answered by the model; a changed row is terminal and stamped with the clock; `no_data` only for an empty history, and then only the status and the timestamp change; `done` carries `is_summarized` true and the answer's fields; identity columns never change |
| `Summarize.OneUserLocal` | src/trigger/jobs/summarizeUserBatch.ts:62-66 | a run's new row depends on that row alone |
| `Summarize.WrittenOnce` | src/trigger/jobs/summarizeUserBatch.ts:68-70 | once a run has written a row, later runs leave it alone, whatever the outside calls return |
| `Summarize.SummarizeUserBatch` | src/trigger/jobs/summarizeUserBatch.ts:37-41 | users outside the payload are untouched; every row either stays or goes from non-terminal to terminal |
| `Summarize.BatchIsolation` | src/trigger/jobs/summarizeUserBatch.ts:37-41 | each payload user ends with exactly the row a run for that user alone gives; failures of siblings do not matter |
| `PendingBatch.PendingRows` | src/services/summarizePendingBatch.ts:8-23 | a reference is in the join iff it comes from a member row of the channel whose profile is null or "pending" |
| `PendingBatch.PendingRowsDistinct` | src/services/summarizePendingBatch.ts:13-23 | unique membership keys give distinct users in the join |
| `PendingBatch.SelectPending` | src/services/summarizePendingBatch.ts:8-24 | the selection has min(100, pending count) entries; every one is a pending member; when fewer than 100 are taken, every pending member is taken; no user twice |
| `PendingBatch.SelectionEmptyIffNonePending` | src/services/summarizePendingBatch.ts:26-28 | the selection is empty iff the pending count is 0 iff no member of the channel is pending |
| `PendingBatch.SummarizePendingBatch` | src/services/summarizePendingBatch.ts:7-50 | true iff nothing is pending, and then no trigger call; otherwise one call whose payload is the selection (1 to 100 entries), and false whatever the call does |
| `PendingBatch.TriggerFailureInvisible` | src/services/summarizePendingBatch.ts:30-49 | the result does not depend on whether the trigger call succeeds |
| `PendingBatch.BatchSettlesSelected` | src/services/summarizePendingBatch.ts:31-36 | summarising a batch's payload leaves a selected user terminal exactly when its run writes |
| `Orchestrator.Observe` | src/trigger/jobs/monitorChannelAnalysis.ts:16-35 | the observed count is the pending count; a missing channel reads as "parsing incomplete" and "report generated" |
| `Orchestrator.ReadyMeans` | src/trigger/jobs/monitorChannelAnalysis.ts:43 | the guard holds iff the channel exists, its parsing latch is set, its report latch is not, and no member of it is pending |
| `Orchestrator.MonitorChannelAnalysis` | src/trigger/jobs/monitorChannelAnalysis.ts:43-57 | the report is triggered iff the guard holds; otherwise a batch is summarised iff something is pending; every other branch reschedules after 30000 ms |
| `Orchestrator.MissingChannelNeverReports` | src/trigger/jobs/monitorChannelAnalysis.ts:20-21 | a missing channel never gets a report and is rescheduled |
| `Orchestrator.LatchSetNeverReports` | src/trigger/jobs/monitorChannelAnalysis.ts:21-47 | once the report latch is set, no poll triggers the report |
| `Orchestrator.SameObservationSameAction` | src/trigger/jobs/monitorChannelAnalysis.ts:16-57 | two states with the same three observed values get the same action |
| `Orchestrator.PollUntilReady` | src/trigger/jobs/startChannelAnalysis.ts:27-66 | every iteration requests a batch of the state it sees; the loop exits iff some polled state meets the guard, at the first such state |
| `Orchestrator.StartChannelAnalysis` | src/trigger/jobs/startChannelAnalysis.ts:17-69 | a failed parse trigger ends the run with no poll; otherwise the report is triggered iff some polled state meets the guard, after a batch request in every iteration; if every state has the report latch set, the report is never triggered |
| `Report.Trim` | src/trigger/jobs/generateFinalChannelReport.ts:266 | the trimmed text is no longer than the input and neither starts nor ends with whitespace |
| `Report.TrimIdempotent` | src/trigger/jobs/generateFinalChannelReport.ts:266 | trimming twice is trimming once |
| `Report.LastIndexOf` | src/trigger/jobs/generateFinalChannelReport.ts:260-261 | the result is the greatest position at most `from` holding the character, or -1 when there is none |
| `Report.CutAt` | src/trigger/jobs/generateFinalChannelReport.ts:256-264 | every cut advances: start < end ≤ start + max, and the last piece runs to the end of the text |
| `Report.CutAtPrefers` | src/trigger/jobs/generateFinalChannelReport.ts:259-264 | a non-final cut is at the last newline in (start, start+max], else at the last space there, else at start+max |
| `Report.NextCut` | src/trigger/jobs/generateFinalChannelReport.ts:256-264 | each piece is non-empty and at most `maxLength` long; the last piece runs to the end of the text; any other piece ends at the window's last newline, else its last space, else after exactly `maxLength` characters |
| `Report.PiecesPartition` | src/trigger/jobs/generateFinalChannelReport.ts:251-268 | the untrimmed pieces concatenate back to the text, and each is non-empty and at most `max` long |
| `Report.ChunksFacts` | src/trigger/jobs/generateFinalChannelReport.ts:251-271 | one chunk per piece; pieces concatenate to the text; each chunk at most `max`; empty text gives none; text that fits gives its trim |
| `Report.SplitTextIntoChunks` | src/trigger/jobs/generateFinalChannelReport.ts:251-271 | the loop returns the trimmed pieces: each at most `maxLength`, none for empty text, one trimmed chunk for text that fits; it terminates because every cut advances |
| `Report.SendLongMessage` | src/trigger/jobs/generateFinalChannelReport.ts:219-249 | what reaches the chat is a prefix of the 4000-character chunks, all posted successfully, ending at the first failed post |
| `Report.MapGender` | src/trigger/jobs/generateFinalChannelReport.ts:273-279 | null or empty gives "Не указано"; "male"/"female" in any letter case give "Мужчины"/"Женщины"; anything else is returned unchanged |
| `Report.LowerSpells` | src/trigger/jobs/generateFinalChannelReport.ts:275-277 | lower-casing equals "male"/"female" iff the text spells it ignoring case |
| `Report.DoneCountZero` | src/trigger/jobs/generateFinalChannelReport.ts:25-32 | the done count is zero iff no member row of the channel joins a `done` profile |
| `Report.ParseDecimalRoundTrip` | src/trigger/jobs/generateFinalChannelReport.ts:34 | `Number` of a count's decimal text is the count |
| `Report.AsWrittenGuardNeverFires` | src/trigger/jobs/generateFinalChannelReport.ts:34-35 | the guard as written is false for every count, because a string never strictly equals a number |
| `Report.AsWrittenGuardMissesEmptyChannel` | src/trigger/jobs/generateFinalChannelReport.ts:34-35 | a channel with no `done` profile passes the guard as written |
| `Report.NoProfilesGuard` | src/trigger/jobs/generateFinalChannelReport.ts:34-38 | the corrected guard fires iff the done count is 0 |
| `Report.MarkReportGenerated` | src/trigger/jobs/generateFinalChannelReport.ts:199-208 | compare-and-set: one row is affected iff the channel exists with a null `report_generated_at`, and then only its text and timestamp change; zero rows means nothing changed |
| `Report.LatchOnce` | src/trigger/jobs/generateFinalChannelReport.ts:199-213 | a second attempt after any first one affects no row and changes nothing |
| `Report.Deliver` | src/trigger/jobs/generateFinalChannelReport.ts:157-213 | an empty completion ends the job with nothing sent or written; otherwise the trimmed report is sent, a failed CSV upload ends the run, and the report is saved iff the CSV went out and the latch was null, in which case exactly that channel's text and timestamp are set to the delivered text and the clock |
| `Report.GenerateFinalChannelReport` | src/trigger/jobs/generateFinalChannelReport.ts:16-213 | each outcome holds iff its condition does: a missing channel; no done profile; done profiles but an empty completion; delivery exactly when the channel has done profiles and the completion is non-empty, with the trimmed report sent before the latch; `Saved` iff delivered, the CSV went out and the latch was null, and then the channels table is the old one with that channel's text and timestamp set to the delivered text and the clock; nothing else writes; a channel whose latch was set never changes |
| `Report.GenerateFinalChannelReportAsWritten` | src/trigger/jobs/generateFinalChannelReport.ts:16-213 | with the guard as written, no run ends for lack of done profiles: an existing channel with a non-empty completion always gets a report |
| `Report.AsWrittenJobReportsEmptyChannel` | src/trigger/jobs/generateFinalChannelReport.ts:25-38 | for a channel with no done profile, the corrected job stops while the job as written delivers and saves the report |
| `Report.AsWrittenAgreesOtherwise` | src/trigger/jobs/generateFinalChannelReport.ts:25-38 | when the channel is missing or has a done profile, the two jobs give the same run |
| `Report.SecondRunKeepsFirstReport` | src/trigger/jobs/generateFinalChannelReport.ts:199-213 | after a run saved its report, a second run never saves and the stored report stays the first one's |

## Left out

- `Report.GenerateFinalChannelReport`: uses the corrected guard on the done count, so it does not promise the behaviour of the code as written; that job is modelled separately as `Report.GenerateFinalChannelReportAsWritten`.
- The Telegram client, the entity resolution and the bot handlers. Whether the resolved entity is a channel is an input (`isChannel`). The search service is a function from (query, offset) to a response. An exception while handling a page (search or transaction) is its `Failed` response.
- The bigrams file read and the `BIGRAM_LIMIT` environment parsing. The bigram list and the limit are parameters, and `ParseMembers.DefaultBigramLimit` records the default of 20.
- Termination of paging. The source pages until the service stops it; the model takes a `fuel` bound on pages per query. A query that exhausts it ends with `OutOfFuel`/`ScanOutOfFuel`, which has no counterpart in the source; in `ParseMembers` it aborts the walk like an exception, so no run completes on exhausted fuel.
- Ids are unbounded naturals. The source converts them with `toJSNumber()`, which loses precision above 2^53.
- The `parsed_at` and `created_at` timestamps, and the `channels` upsert and order tables (thin wrappers outside the pipeline).
- The Postgres calls of `summarizeOneUser`: the profile read and the final update are the booleans `Oracles.readOk` and `Oracles.updateOk`; a throw from either is swallowed by the same handler and leaves the row as it was.
- OpenAI calls, zod validation and the tokenizer. The model's reply is `Oracles.reply` (`None` for a throw or an unparsed answer) and the token cost is `Oracles.cost`. The ClickHouse history query (texts longer than 10 characters, at most 1000 rows) is `Oracles.history`, which may throw.
- The `p-limit(5)` concurrency of `summarizeUserBatch` is modelled as a sequential fold with one clock reading. Each run reads and writes only its own row, which `Summarize.OneUserLocal` and `Summarize.BatchIsolation` state.
- trigger.dev scheduling, `delayedMonitorTrigger`, `setTimeout` delays and the 3-second pauses of `startChannelAnalysis` (src/trigger/jobs/startChannelAnalysis.ts:65). Each poll sees one state of the store from a given sequence.
- An exception from the pollers' own selects. It fails the task run and is not modelled.
- The report's SQL aggregation, its statistics header, `percent` and the random sample are inputs (`ReportInputs.header`). The prompt and the model call are represented only by their completion.
- The CSV export: the file write and HTTP upload are one boolean, `csvSent`.
- The chat posts of `sendLongMessage` are the predicate `postOk`. A failed post ends the sending, as its `break` does.
- Text is a sequence of Unicode code points, while JavaScript strings index UTF-16 code units. Text outside the Basic Multilingual Plane is therefore cut at different positions.
- `Report.SplitTextIntoChunks`: requires `maxLength > 0`, because with 0 the source's loop never advances. Both callers pass 4000.
- `Report.LowerChar`: lowers only the Latin capitals. This is exact for the comparison with "male"/"female", but a value returned unchanged is not lower-cased anyway.
- `PendingBatch.SelectPending`: the source's join has no `ORDER BY`, so which 100 pending users a batch takes is up to the database. The model takes them in membership insertion order; its other facts (size, all pending, no repeats, all taken when fewer than 100) hold for any order.
- `Orchestrator.StartChannelAnalysis`: a run that never meets the guard keeps polling in the source; the model stops when its sequence of polled states runs out.
- src/services/analyzeChannel.ts is entirely commented out. The bot's pricing uses floating point and is not part of this model.

## Findings

| source | as written | input that shows it | evidently intended | confidence | as-written member | corrected member |
|---|---|---|---|---|---|---|
| src/trigger/jobs/generateFinalChannelReport.ts:34-35 | `count(*)` comes back from the Postgres driver as decimal text, so `total[0]?.count \|\| 0` keeps the string (even "0" is truthy) and `count === 0` compares a string with a number, which is never true | a channel with no `done` profile: the count is "0", the job does not exit and goes on to ask the model for a report over no profiles | exit when no profile is done, as the monitor does with `Number(pendingCount)` | medium (driver default for `bigint` columns); not executed | `Report.AsWrittenJobReportsEmptyChannel` | `Report.GenerateFinalChannelReport` |

`Report.GenerateFinalChannelReport` uses the corrected guard. `Report.GenerateFinalChannelReportAsWritten` is the job with the guard as written (`Report.NoProfilesGuardAsWritten`, false for every count by `Report.AsWrittenGuardNeverFires`); `Report.AsWrittenJobReportsEmptyChannel` shows it saving a report for a channel with no done profile, and `Report.AsWrittenAgreesOtherwise` that the two jobs agree everywhere else.

=== FILE: common.dfy ===
/** Small shared vocabulary: an optional value (a nullable column or an
    optional JavaScript value), concatenation of batches, and the fixed-size
    batching loop `for (i = 0; i < xs.length; i += n) xs.slice(i, i + n)`
    that every insert and dispatch in the pipeline uses. */
module Common {

  /** A nullable value: `None` is SQL NULL or JavaScript null/undefined. */
  datatype Option<+T> = None | Some(value: T)

  /** All batches concatenated, in order. */
  function Flatten<T>(xss: seq<seq<T>>): seq<T>
  {
    if |xss| == 0 then [] else xss[0] + Flatten(xss[1..])
  }

  lemma {:induction false} FlattenAppend<T>(a: seq<seq<T>>, b: seq<seq<T>>)
    ensures Flatten(a + b) == Flatten(a) + Flatten(b)
    decreases |a|
  {
    if |a| == 0 {
      assert a + b == b;
    } else {
      assert (a + b)[0] == a[0];
      assert (a + b)[1..] == a[1..] + b;
      FlattenAppend(a[1..], b);
    }
  }

  /** The batches of at most `size` consecutive elements that the slicing loop
      produces. Concatenated they give back `xs`; every batch is non-empty and
      within the cap, and only the last may be short. */
  function Chunk<T>(xs: seq<T>, size: nat): (r: seq<seq<T>>)
    requires size > 0
    ensures Flatten(r) == xs
    ensures forall i :: 0 <= i < |r| ==> 0 < |r[i]| <= size
    ensures forall i :: 0 <= i < |r| - 1 ==> |r[i]| == size
    ensures |xs| == 0 <==> |r| == 0
    decreases |xs|
  {
    if |xs| == 0 then []
    else if |xs| <= size then
      assert Flatten([xs]) == xs + Flatten([xs][1..]);
      [xs]
    else
      var rest := Chunk(xs[size..], size);
      var r := [xs[..size]] + rest;
      assert r[0] == xs[..size] && r[1..] == rest;
      assert xs == xs[..size] + xs[size..];
      r
  }

  lemma FlattenFirst<T>(xss: seq<seq<T>>)
    ensures |xss| > 0 ==> |Flatten(xss)| >= |xss[0]|
  {
  }

  lemma FirstIn<T>(s: seq<T>)
    ensures |s| > 0 ==> s[0] in s
  {
  }

  lemma AppendAssoc<T>(a: seq<T>, b: seq<T>, c: seq<T>)
    ensures a + (b + c) == (a + b) + c
  {
  }

  /** What a log gained over `l0` is what it gained up to `l1` followed by
      what it gained after `l1`. */
  lemma SuffixSplit<T>(l0: seq<T>, l1: seq<T>, l2: seq<T>)
    requires l0 <= l1 <= l2
    ensures l2[|l0|..] == l1[|l0|..] + l2[|l1|..]
  {
  }

  function Min(a: int, b: int): int
  {
    if a <= b then a else b
  }
}

=== FILE: orchestrator.dfy ===
/** The two pollers that decide when a channel's report may be produced:
    the self-rescheduling task of src/trigger/jobs/monitorChannelAnalysis.ts
    and the polling loop of src/trigger/jobs/startChannelAnalysis.ts. Both
    read three values (the parsing latch, the number of pending members,
    and whether the report latch is set) and act on them alone. */
module Orchestrator {
  import opened Common
  import opened Schema
  import opened Summarize
  import opened PendingBatch

  /** `delayMs` of the re-trigger. */
  const RescheduleDelayMs := 30000

  /** What one poll observes. */
  datatype Obs = Obs(parsingComplete: bool, pending: nat, reportGenerated: bool)

  /** The reads of a poll: `channel?.parsing_complete === true`,
      `channel?.report_generated_at !== null` (so a missing channel reads as
      "generated", since `undefined !== null`), and the pending count. */
  function Observe(store: Store, ch: ChannelId): (o: Obs)
    ensures o.pending == PendingCount(store, ch)
    ensures ch !in store.channels ==> !o.parsingComplete && o.reportGenerated
  {
    if ch in store.channels then
      var c := store.channels[ch];
      Obs(c.parsingComplete == Some(true), PendingCount(store, ch), c.reportGeneratedAt.Some?)
    else Obs(false, PendingCount(store, ch), true)
  }

  /** The guard both pollers share. */
  predicate ReadyForReport(o: Obs)
  {
    o.parsingComplete && o.pending == 0 && !o.reportGenerated
  }

  /** The guard read on the store: the channel exists, its parsing latch is
      set, its report latch is not, and none of its members is pending. */
  lemma ReadyMeans(store: Store, ch: ChannelId)
    ensures ReadyForReport(Observe(store, ch)) <==>
      && ch in store.channels
      && store.channels[ch].parsingComplete == Some(true)
      && store.channels[ch].reportGeneratedAt == None
      && (forall m :: m in store.members ==> !PendingMember(store, ch, m))
  {
    SelectionEmptyIffNonePending(store, ch);
  }

  datatype Action = TriggerReport | SummarizeAndReschedule(delayMs: nat) | Reschedule(delayMs: nat)

  /** One monitor run: what it decided, and the batch it requested if any. */
  datatype MonitorStep = MonitorStep(action: Action, batch: Option<BatchOutcome>)

  /** `monitorChannelAnalysis`: the report when ready; otherwise a
      summarisation batch exactly when something is pending, and a
      re-trigger after 30 s in every case. */
  function MonitorChannelAnalysis(store: Store, ch: ChannelId, trigger: seq<UserRef> -> bool): (r: MonitorStep)
    ensures r.action == TriggerReport <==> ReadyForReport(Observe(store, ch))
    ensures r.action.SummarizeAndReschedule? <==>
      !ReadyForReport(Observe(store, ch)) && PendingCount(store, ch) > 0
    ensures !r.action.TriggerReport? ==> r.action.delayMs == RescheduleDelayMs
    ensures r.batch.Some? <==> r.action.SummarizeAndReschedule?
    ensures r.batch.Some? ==> !r.batch.value.allDone && r.batch.value.sent.Some?
  {
    var o := Observe(store, ch);
    if ReadyForReport(o) then MonitorStep(TriggerReport, None)
    else if o.pending > 0 then
      MonitorStep(SummarizeAndReschedule(RescheduleDelayMs), Some(SummarizePendingBatch(store, ch, trigger)))
    else MonitorStep(Reschedule(RescheduleDelayMs), None)
  }

  /** A channel row that does not exist never gets a report. */
  lemma MissingChannelNeverReports(store: Store, ch: ChannelId, trigger: seq<UserRef> -> bool)
    requires ch !in store.channels
    ensures MonitorChannelAnalysis(store, ch, trigger).action != TriggerReport
    ensures MonitorChannelAnalysis(store, ch, trigger).action.delayMs == RescheduleDelayMs
  {
  }

  /** Once the report latch is set, no poll asks for another report. */
  lemma LatchSetNeverReports(store: Store, ch: ChannelId, trigger: seq<UserRef> -> bool)
    requires ch in store.channels && store.channels[ch].reportGeneratedAt.Some?
    ensures MonitorChannelAnalysis(store, ch, trigger).action != TriggerReport
  {
  }

  /** The decision is level-triggered: two states that read the same three
      values get the same action, so a replayed poll repeats itself. */
  lemma SameObservationSameAction(s1: Store, s2: Store, ch: ChannelId, t1: seq<UserRef> -> bool, t2: seq<UserRef> -> bool)
    requires Observe(s1, ch) == Observe(s2, ch)
    ensures MonitorChannelAnalysis(s1, ch, t1).action == MonitorChannelAnalysis(s2, ch, t2).action
  {
  }

  /** How far a `startChannelAnalysis` run got over the states its polls
      saw: the batch of every iteration, and whether it left the loop and
      triggered the report. */
  datatype StartRun = StartRun(batches: seq<BatchOutcome>, reportTriggered: bool)

  /** The polling loop of `startChannelAnalysis`: every iteration first
      requests a batch (`batch` of the state it sees), then reads the store,
      and leaves the loop only on the report guard. */
  method PollUntilReady(states: seq<Store>, ch: ChannelId, batch: Store -> BatchOutcome)
    returns (batches: seq<BatchOutcome>, ready: bool)
    ensures ready <==> exists i :: 0 <= i < |states| && ReadyForReport(Observe(states[i], ch))
    ensures |batches| <= |states|
    ensures forall i :: 0 <= i < |batches| ==> batches[i] == batch(states[i])
    ensures forall i :: 0 <= i < |batches| - 1 ==> !ReadyForReport(Observe(states[i], ch))
    ensures ready ==> |batches| > 0 && ReadyForReport(Observe(states[|batches| - 1], ch))
    ensures !ready ==> |batches| == |states|
  {
    batches := [];
    var i := 0;
    while i < |states|
      invariant 0 <= i <= |states| && |batches| == i
      invariant forall k :: 0 <= k < i ==> batches[k] == batch(states[k])
      invariant forall k :: 0 <= k < i ==> !ReadyForReport(Observe(states[k], ch))
    {
      batches := batches + [batch(states[i])];
      if ReadyForReport(Observe(states[i], ch)) {
        return batches, true;
      }
      i := i + 1;
    }
    return batches, false;
  }

  /** `startChannelAnalysis`, given whether triggering the parse task
      succeeded and the store each poll reads. A failed parse trigger ends
      the run at once. Each iteration requests a summarisation batch and
      leaves the loop only on the report guard; the report is triggered
      right after. A run that has not met the guard is still polling when
      the states run out; if every state already has the report latch set,
      the loop never exits. */
  method StartChannelAnalysis(parseTriggered: bool, states: seq<Store>, ch: ChannelId,
                              trigger: seq<UserRef> -> bool) returns (r: StartRun)
    ensures !parseTriggered ==> r.batches == [] && !r.reportTriggered
    ensures r.reportTriggered <==>
      parseTriggered && exists i :: 0 <= i < |states| && ReadyForReport(Observe(states[i], ch))
    ensures |r.batches| <= |states|
    ensures forall i :: 0 <= i < |r.batches| ==> r.batches[i] == SummarizePendingBatch(states[i], ch, trigger)
    ensures forall i :: 0 <= i < |r.batches| - 1 ==> !ReadyForReport(Observe(states[i], ch))
    ensures r.reportTriggered ==> |r.batches| > 0 && ReadyForReport(Observe(states[|r.batches| - 1], ch))
    ensures parseTriggered && !r.reportTriggered ==> |r.batches| == |states|
    ensures (forall i :: 0 <= i < |states| ==> Observe(states[i], ch).reportGenerated) ==> !r.reportTriggered
  {
    if !parseTriggered {
      return StartRun([], false);
    }
    var batches, ready := PollUntilReady(states, ch, s => SummarizePendingBatch(s, ch, trigger));
    return StartRun(batches, ready);
  }
}

=== FILE: parse_and_summarize.dfy ===
/** The crawl variant of src/trigger/jobs/parseAndSummarizeChannel.ts. Its
    `parseQuery` differs from the other two copies: it keeps every `Api.User`
    of a page (no seen filter), counts them in `found`, hands them to the
    summariser in batches of 100 right after the insert transaction, and
    catches any exception of a page iteration, which just ends that query.
    The task never writes `parsing_complete`. */
module ParseAndSummarize {
  import opened Common
  import opened Schema
  import opened Search
  import opened ParseMembers
  import Summarize

  type UserRef = Summarize.UserRef

  /** Users per `summarizeUserBatch.trigger` payload. */
  const SummaryBatchSize := 100

  /** One trigger call: its payload, and whether the call succeeded (a
      failure is logged and the loop goes on). */
  datatype Dispatch = Dispatch(users: seq<UserRef>, accepted: bool)

  /** Outcome of `summarizeUserBatch.trigger` for a payload. */
  type TriggerFn = seq<UserRef> -> bool

  function Refs(users: seq<User>): (r: seq<UserRef>)
    ensures |r| == |users|
    ensures forall i :: 0 <= i < |users| ==> r[i] == Summarize.UserRef(users[i].id, users[i].username)
  {
    seq(|users|, i requires 0 <= i < |users| => Summarize.UserRef(users[i].id, users[i].username))
  }

  function Payloads(ds: seq<Dispatch>): (r: seq<seq<UserRef>>)
    ensures |r| == |ds|
    ensures forall i :: 0 <= i < |ds| ==> r[i] == ds[i].users
  {
    seq(|ds|, i requires 0 <= i < |ds| => ds[i].users)
  }

  /** The users of all pages, in page order, as summariser references. */
  function PageRefs(pages: seq<seq<Entry>>): seq<UserRef>
  {
    if |pages| == 0 then [] else Refs(Users(pages[0])) + PageRefs(pages[1..])
  }

  /** Number of `Api.User` entries over all pages. */
  function UserCount(pages: seq<seq<Entry>>): nat
  {
    if |pages| == 0 then 0 else |Users(pages[0])| + UserCount(pages[1..])
  }

  /** The dispatch loop of one page: every batch of at most 100 users is
      tried, whatever happened to the batches before it. */
  function DispatchPage(trigger: TriggerFn, refs: seq<UserRef>): (r: seq<Dispatch>)
    ensures Payloads(r) == Chunk(refs, SummaryBatchSize)
    ensures Flatten(Payloads(r)) == refs
    ensures forall i :: 0 <= i < |r| ==> r[i].accepted == trigger(r[i].users)
  {
    var batches := Chunk(refs, SummaryBatchSize);
    seq(|batches|, i requires 0 <= i < |batches| => Dispatch(batches[i], trigger(batches[i])))
  }

  /** Why paging ended. `ScanCaught` is an exception in the page iteration;
      `ScanOutOfFuel` is the model's page bound. */
  datatype ScanStop = ScanNotModified | ScanShortPage | ScanCaught | ScanOutOfFuel

  datatype ScanRun = ScanRun(
    pages: seq<seq<Entry>>,
    seen: set<UserId>,
    found: nat,
    store: Store,
    escalate: bool,
    dispatches: seq<Dispatch>,
    stop: ScanStop)

  predicate ScanStopped(api: SearchApi, q: string, next: nat, r: ScanRun, fuel: nat)
  {
    && (r.stop == ScanNotModified ==> api(q, next) == NotModified)
    && (r.stop == ScanCaught ==> api(q, next) == Failed)
    && (r.stop == ScanShortPage ==> |r.pages| > 0 && |r.pages[|r.pages| - 1]| < PageLimit)
    && (|r.pages| > 0 && |r.pages[|r.pages| - 1]| < PageLimit ==> r.stop == ScanShortPage)
    && (r.stop == ScanOutOfFuel ==> |r.pages| == fuel)
  }

  predicate GoodDispatches(trigger: TriggerFn, ds: seq<Dispatch>)
  {
    forall i :: 0 <= i < |ds| ==>
      0 < |ds[i].users| <= SummaryBatchSize && ds[i].accepted == trigger(ds[i].users)
  }

  /** The paging side of one call of this loop: the pages it completed
      came from the search at offsets advanced by raw page lengths; `seen`
      and `found` grew by exactly the users on those pages; the flag is set
      iff it was or one of them was full; and paging stopped for the
      recorded reason. */
  predicate ScanPaging(api: SearchApi, q: string, offset: nat, seen: set<UserId>, found: nat,
                       escalate: bool, fuel: nat, r: ScanRun)
  {
    && r.seen == seen + AllIds(r.pages)
    && r.found == found + UserCount(r.pages)
    && (r.escalate <==> escalate || SomeFullPage(r.pages))
    && Fetched(api, q, offset, r.pages)
    && (forall i :: 0 <= i < |r.pages| - 1 ==> |r.pages[i]| >= PageLimit)
    && ScanStopped(api, q, offset + TotalLength(r.pages), r, fuel)
  }

  /** The effects of one call: the store gained exactly the users of the
      completed pages, and the summariser was offered all of them, in
      order, in batches of at most 100. */
  predicate ScanEffects(trigger: TriggerFn, ch: ChannelId, store: Store, r: ScanRun)
  {
    && SavedExactly(store, r.store, ch, AllIds(r.pages))
    && Flatten(Payloads(r.dispatches)) == PageRefs(r.pages)
    && GoodDispatches(trigger, r.dispatches)
  }

  predicate ScanFacts(api: SearchApi, trigger: TriggerFn, q: string, ch: ChannelId, offset: nat,
                      seen: set<UserId>, found: nat, store: Store, escalate: bool, fuel: nat, r: ScanRun)
  {
    ScanPaging(api, q, offset, seen, found, escalate, fuel, r) && ScanEffects(trigger, ch, store, r)
  }

  lemma PayloadsAppend(a: seq<Dispatch>, b: seq<Dispatch>)
    ensures Flatten(Payloads(a + b)) == Flatten(Payloads(a)) + Flatten(Payloads(b))
  {
    assert Payloads(a + b) == Payloads(a) + Payloads(b);
    FlattenAppend(Payloads(a), Payloads(b));
  }

  lemma ScanExtendSums(entries: seq<Entry>, restPages: seq<seq<Entry>>)
    ensures AllIds([entries] + restPages) == PageIds(entries) + AllIds(restPages)
    ensures UserCount([entries] + restPages) == |Users(entries)| + UserCount(restPages)
    ensures TotalLength([entries] + restPages) == |entries| + TotalLength(restPages)
    ensures PageRefs([entries] + restPages) == Refs(Users(entries)) + PageRefs(restPages)
  {
    var pages := [entries] + restPages;
    assert pages[0] == entries && pages[1..] == restPages;
  }

  lemma ScanExtendShape(entries: seq<Entry>, restPages: seq<seq<Entry>>, escalate: bool, restEscalate: bool)
    requires |entries| >= PageLimit
    requires restEscalate <==> true || SomeFullPage(restPages)
    requires forall i :: 0 <= i < |restPages| - 1 ==> |restPages[i]| >= PageLimit
    ensures restEscalate <==> escalate || SomeFullPage([entries] + restPages)
    ensures forall i :: 0 <= i < |[entries] + restPages| - 1 ==> |([entries] + restPages)[i]| >= PageLimit
  {
    SomeFullPageCons(entries, restPages);
    ExtendFull(entries, restPages);
  }

  lemma ScanExtendStop(api: SearchApi, q: string, offset: nat, fuel: nat, entries: seq<Entry>, rest: ScanRun, ds: seq<Dispatch>)
    requires fuel > 0
    requires |entries| >= PageLimit
    requires ScanStopped(api, q, offset + |entries| + TotalLength(rest.pages), rest, fuel - 1)
    ensures ScanStopped(api, q, offset + TotalLength([entries] + rest.pages),
                        ScanRun([entries] + rest.pages, rest.seen, rest.found, rest.store, rest.escalate,
                                ds + rest.dispatches, rest.stop), fuel)
  {
    var pages := [entries] + rest.pages;
    ScanExtendSums(entries, rest.pages);
    if |rest.pages| > 0 {
      assert pages[|pages| - 1] == rest.pages[|rest.pages| - 1];
    }
  }

  lemma DispatchPageGood(trigger: TriggerFn, refs: seq<UserRef>)
    ensures GoodDispatches(trigger, DispatchPage(trigger, refs))
  {
    var ds := DispatchPage(trigger, refs);
    forall i | 0 <= i < |ds| ensures 0 < |ds[i].users| <= SummaryBatchSize {
      assert Payloads(ds)[i] == ds[i].users;
    }
  }

  lemma ScanExtendDispatches(trigger: TriggerFn, entries: seq<Entry>, restPages: seq<seq<Entry>>,
                             ds: seq<Dispatch>, restDs: seq<Dispatch>)
    requires Flatten(Payloads(ds)) == Refs(Users(entries)) && GoodDispatches(trigger, ds)
    requires Flatten(Payloads(restDs)) == PageRefs(restPages) && GoodDispatches(trigger, restDs)
    ensures Flatten(Payloads(ds + restDs)) == PageRefs([entries] + restPages)
    ensures GoodDispatches(trigger, ds + restDs)
  {
    PayloadsAppend(ds, restDs);
    ScanExtendSums(entries, restPages);
    var all := ds + restDs;
    forall i | 0 <= i < |all|
      ensures 0 < |all[i].users| <= SummaryBatchSize && all[i].accepted == trigger(all[i].users)
    {
      if i >= |ds| {
        assert all[i] == restDs[i - |ds|];
      } else {
        assert all[i] == ds[i];
      }
    }
  }

  /** What one completed page contributes: its users saved and offered to
      the summariser. */
  predicate PageDone(trigger: TriggerFn, ch: ChannelId, entries: seq<Entry>, store: Store, store': Store, ds: seq<Dispatch>)
  {
    && SavedExactly(store, store', ch, PageIds(entries))
    && Flatten(Payloads(ds)) == Refs(Users(entries))
    && GoodDispatches(trigger, ds)
  }

  lemma PageDoneHolds(trigger: TriggerFn, ch: ChannelId, entries: seq<Entry>, store: Store)
    ensures PageDone(trigger, ch, entries, store, SaveUsers(store, ch, Users(entries)),
                     DispatchPage(trigger, Refs(Users(entries))))
  {
    UserIds(entries);
    DispatchPageGood(trigger, Refs(Users(entries)));
  }

  lemma ScanExtendPaging(api: SearchApi, q: string, offset: nat, seen: set<UserId>, found: nat,
                         escalate: bool, fuel: nat, entries: seq<Entry>, ds: seq<Dispatch>, rest: ScanRun)
    requires fuel > 0 && api(q, offset) == Participants(entries) && |entries| >= PageLimit
    requires ScanPaging(api, q, offset + |entries|, seen + PageIds(entries), found + |Users(entries)|, true, fuel - 1, rest)
    ensures ScanPaging(api, q, offset, seen, found, escalate, fuel,
                       ScanRun([entries] + rest.pages, rest.seen, rest.found, rest.store, rest.escalate,
                               ds + rest.dispatches, rest.stop))
  {
    var r := ScanRun([entries] + rest.pages, rest.seen, rest.found, rest.store, rest.escalate,
                     ds + rest.dispatches, rest.stop);
    assert ScanStopped(api, q, offset + TotalLength(r.pages), r, fuel) by {
      ScanExtendStop(api, q, offset, fuel, entries, rest, ds);
    }
    assert r.seen == seen + AllIds(r.pages) && r.found == found + UserCount(r.pages) by {
      ScanExtendSums(entries, rest.pages);
    }
    assert Fetched(api, q, offset, r.pages) by {
      FetchedCons(api, q, offset, entries, rest.pages);
    }
    ScanExtendShape(entries, rest.pages, escalate, rest.escalate);
  }

  lemma ScanExtendEffects(trigger: TriggerFn, ch: ChannelId, store: Store, entries: seq<Entry>,
                          store': Store, ds: seq<Dispatch>, rest: ScanRun)
    requires PageDone(trigger, ch, entries, store, store', ds)
    requires ScanEffects(trigger, ch, store', rest)
    ensures ScanEffects(trigger, ch, store,
                        ScanRun([entries] + rest.pages, rest.seen, rest.found, rest.store, rest.escalate,
                                ds + rest.dispatches, rest.stop))
  {
    ScanExtendSums(entries, rest.pages);
    SavedExactlyTrans(store, store', rest.store, ch, PageIds(entries), AllIds(rest.pages));
    ScanExtendDispatches(trigger, entries, rest.pages, ds, rest.dispatches);
  }

  lemma ScanExtend(api: SearchApi, trigger: TriggerFn, q: string, ch: ChannelId, offset: nat,
                   seen: set<UserId>, found: nat, store: Store, escalate: bool, fuel: nat,
                   entries: seq<Entry>, store': Store, ds: seq<Dispatch>, rest: ScanRun)
    requires fuel > 0 && api(q, offset) == Participants(entries) && |entries| >= PageLimit
    requires PageDone(trigger, ch, entries, store, store', ds)
    requires ScanFacts(api, trigger, q, ch, offset + |entries|, seen + PageIds(entries),
                       found + |Users(entries)|, store', true, fuel - 1, rest)
    ensures ScanFacts(api, trigger, q, ch, offset, seen, found, store, escalate, fuel,
                      ScanRun([entries] + rest.pages, rest.seen, rest.found, rest.store, rest.escalate,
                               ds + rest.dispatches, rest.stop))
  {
    ScanExtendPaging(api, q, offset, seen, found, escalate, fuel, entries, ds, rest);
    ScanExtendEffects(trigger, ch, store, entries, store', ds, rest);
  }

  lemma ScanEffectsEmpty(trigger: TriggerFn, ch: ChannelId, r: ScanRun)
    requires r.pages == [] && r.dispatches == []
    ensures ScanEffects(trigger, ch, r.store, r)
  {
    assert MemberOf(ch, {}) == {};
  }

  lemma ScanLast(api: SearchApi, trigger: TriggerFn, q: string, ch: ChannelId, offset: nat,
                 seen: set<UserId>, found: nat, store: Store, escalate: bool, fuel: nat,
                 entries: seq<Entry>, store': Store, ds: seq<Dispatch>)
    requires fuel > 0 && api(q, offset) == Participants(entries) && |entries| < PageLimit
    requires PageDone(trigger, ch, entries, store, store', ds)
    ensures ScanFacts(api, trigger, q, ch, offset, seen, found, store, escalate, fuel,
                      ScanRun([entries], seen + PageIds(entries), found + |Users(entries)|,
                              store', escalate, ds, ScanShortPage))
  {
    var none: seq<seq<Entry>> := [];
    var noDs: seq<Dispatch> := [];
    var r := ScanRun([entries], seen + PageIds(entries), found + |Users(entries)|, store', escalate, ds, ScanShortPage);
    assert [entries] + none == [entries] && ds + noDs == ds;
    assert ScanPaging(api, q, offset, seen, found, escalate, fuel, r) by {
      ScanExtendSums(entries, none);
      FetchedCons(api, q, offset, entries, none);
      assert !SomeFullPage(none);
      SomeFullPageCons(entries, none);
    }
    assert ScanEffects(trigger, ch, store, r) by {
      var empty := ScanRun(none, seen, found, store', escalate, noDs, ScanShortPage);
      ScanEffectsEmpty(trigger, ch, empty);
      ScanExtendEffects(trigger, ch, store, entries, store', ds, empty);
    }
  }

  /** The `while (true) { try { ... } catch { break } }` loop of this
      variant's `parseQuery`, from `offset` on, with at most `fuel` pages. */
  function ScanQueryFrom(api: SearchApi, trigger: TriggerFn, q: string, ch: ChannelId, offset: nat,
                         seen: set<UserId>, found: nat, store: Store, escalate: bool, fuel: nat): (r: ScanRun)
    ensures ScanFacts(api, trigger, q, ch, offset, seen, found, store, escalate, fuel, r)
    decreases fuel
  {
    if fuel == 0 then ScanRun([], seen, found, store, escalate, [], ScanOutOfFuel)
    else
      match api(q, offset)
      case Failed => ScanRun([], seen, found, store, escalate, [], ScanCaught)
      case NotModified => ScanRun([], seen, found, store, escalate, [], ScanNotModified)
      case Participants(entries) =>
        var users := Users(entries);
        var store' := SaveUsers(store, ch, users);
        var ds := DispatchPage(trigger, Refs(users));
        PageDoneHolds(trigger, ch, entries, store);
        var seen' := seen + PageIds(entries);
        var found' := found + |Users(entries)|;
        if |entries| < PageLimit then
          ScanLast(api, trigger, q, ch, offset, seen, found, store, escalate, fuel, entries, store', ds);
          ScanRun([entries], seen', found', store', escalate, ds, ScanShortPage)
        else
          var rest := ScanQueryFrom(api, trigger, q, ch, offset + |entries|, seen', found', store', true, fuel - 1);
          assert fuel > 0 && api(q, offset) == Participants(entries) && |entries| >= PageLimit;
          assert PageDone(trigger, ch, entries, store, store', ds);
          assert ScanPaging(api, q, offset + |entries|, seen', found', true, fuel - 1, rest);
          assert ScanEffects(trigger, ch, store', rest);
          ScanExtend(api, trigger, q, ch, offset, seen, found, store, escalate, fuel, entries, store', ds, rest);
          ScanRun([entries] + rest.pages, rest.seen, rest.found, rest.store, rest.escalate, ds + rest.dispatches, rest.stop)
  }

  /** This variant's `parseQuery`: from offset 0, `found` 0, flag clear. */
  function ScanQuery(api: SearchApi, trigger: TriggerFn, q: string, ch: ChannelId, seen: set<UserId>,
                     store: Store, fuel: nat): (r: ScanRun)
    ensures ScanFacts(api, trigger, q, ch, 0, seen, 0, store, false, fuel, r)
  {
    ScanQueryFrom(api, trigger, q, ch, 0, seen, 0, store, false, fuel)
  }

  /** A query whose first page is empty ends at once: nothing found, no
      escalation, nothing dispatched, nothing written. */
  lemma EmptyFirstPage(api: SearchApi, trigger: TriggerFn, q: string, ch: ChannelId, seen: set<UserId>,
                       store: Store, fuel: nat)
    requires fuel > 0 && api(q, 0) == Participants([])
    ensures var r := ScanQuery(api, trigger, q, ch, seen, store, fuel);
      !r.escalate && r.found == 0 && r.dispatches == [] && r.seen == seen && r.store == store
  {
    EmptyRun(api, trigger, q, ch, seen, store, fuel, ScanQuery(api, trigger, q, ch, seen, store, fuel));
  }

  lemma EmptyRun(api: SearchApi, trigger: TriggerFn, q: string, ch: ChannelId, seen: set<UserId>,
                 store: Store, fuel: nat, r: ScanRun)
    requires fuel > 0 && api(q, 0) == Participants([])
    requires ScanFacts(api, trigger, q, ch, 0, seen, 0, store, false, fuel, r)
    ensures !r.escalate && r.found == 0 && r.dispatches == [] && r.seen == seen && r.store == store
  {
    var empty: seq<Entry> := [];
    assert r.pages == [empty] by {
      OnlyEmptyPage(api, q, fuel, r);
    }
    assert AllIds(r.pages) == {} && UserCount(r.pages) == 0 && PageRefs(r.pages) == [] by {
      assert r.pages[1..] == [];
      assert Users(empty) == [];
    }
    assert !SomeFullPage(r.pages);
    NoRefsNoDispatches(trigger, r.dispatches);
    SavedNothing(store, r.store, ch);
  }

  /** Facts that pin the run to the one empty page it read. */
  lemma OnlyEmptyPage(api: SearchApi, q: string, fuel: nat, r: ScanRun)
    requires fuel > 0 && api(q, 0) == Participants([])
    requires Fetched(api, q, 0, r.pages)
    requires forall i :: 0 <= i < |r.pages| - 1 ==> |r.pages[i]| >= PageLimit
    requires ScanStopped(api, q, TotalLength(r.pages), r, fuel)
    ensures r.pages == [[]]
  {
    var none: seq<seq<Entry>> := [];
    assert TotalLength(none) == 0;
    assert |r.pages| > 0;
    assert r.pages[0] == [];
    assert |r.pages| == 1;
  }

  /** Dispatches with non-empty payloads that carry no user are none. */
  lemma NoRefsNoDispatches(trigger: TriggerFn, ds: seq<Dispatch>)
    requires GoodDispatches(trigger, ds) && Flatten(Payloads(ds)) == []
    ensures ds == []
  {
    FlattenFirst(Payloads(ds));
  }

  /** One query as this driver uses it. */
  type ScanFn = (string, set<UserId>, Store) -> ScanRun

  ghost predicate ScanWellBehaved(scan: ScanFn)
  {
    forall q, seen, st :: seen <= scan(q, seen, st).seen && Grows(st, scan(q, seen, st).store)
  }

  function Scanner(api: SearchApi, trigger: TriggerFn, ch: ChannelId, fuel: nat): (scan: ScanFn)
    ensures ScanWellBehaved(scan)
  {
    var scan := (q, seen, st) => ScanQuery(api, trigger, q, ch, seen, st, fuel);
    assert ScanWellBehaved(scan) by {
      forall q, seen, st ensures seen <= scan(q, seen, st).seen && Grows(st, scan(q, seen, st).store) {
        var run := ScanQuery(api, trigger, q, ch, seen, st, fuel);
        assert SavedExactly(st, run.store, ch, AllIds(run.pages));
      }
    }
    scan
  }

  /** The stop reason of a scan in the terms of the log. */
  function StopOf(stop: ScanStop): (r: StopReason)
    ensures r == NotParticipants <==> stop == ScanNotModified
    ensures r == ShortPage <==> stop == ScanShortPage
    ensures r == Threw <==> stop == ScanCaught
    ensures r == OutOfFuel <==> stop == ScanOutOfFuel
  {
    match stop
    case ScanNotModified => NotParticipants
    case ScanShortPage => ShortPage
    case ScanCaught => Threw
    case ScanOutOfFuel => OutOfFuel
  }

  /** The log replays its queries one after another from `seen` and
      `store`: each step records the flag and the stop reason its scan
      returned on the state the steps before it left; `ds` is those scans'
      dispatches in order; `seen'` and `store'` are the state after the
      last step. */
  predicate ScanReplays(scan: ScanFn, log: seq<Step>, seen: set<UserId>, store: Store,
                        seen': set<UserId>, store': Store, ds: seq<Dispatch>)
    decreases |log|
  {
    if |log| == 0 then seen' == seen && store' == store && ds == []
    else
      var run := scan(log[0].query, seen, store);
      && log[0].escalate == run.escalate && log[0].stop == StopOf(run.stop)
      && |run.dispatches| <= |ds| && ds[..|run.dispatches|] == run.dispatches
      && ScanReplays(scan, log[1..], run.seen, run.store, seen', store', ds[|run.dispatches|..])
  }

  lemma {:induction false} ScanReplaysAppend(scan: ScanFn, a: seq<Step>, b: seq<Step>, s0: set<UserId>, st0: Store,
                                             s1: set<UserId>, st1: Store, s2: set<UserId>, st2: Store,
                                             da: seq<Dispatch>, db: seq<Dispatch>)
    requires ScanReplays(scan, a, s0, st0, s1, st1, da) && ScanReplays(scan, b, s1, st1, s2, st2, db)
    ensures ScanReplays(scan, a + b, s0, st0, s2, st2, da + db)
    decreases |a|
  {
    if |a| == 0 {
      assert a + b == b && da + db == db;
    } else {
      var run := scan(a[0].query, s0, st0);
      var k := |run.dispatches|;
      ScanReplaysAppend(scan, a[1..], b, run.seen, run.store, s1, st1, s2, st2, da[k..], db);
      assert (a + b)[0] == a[0];
      assert (a + b)[1..] == a[1..] + b;
      assert (da + db)[..k] == da[..k];
      assert (da + db)[k..] == da[k..] + db;
    }
  }

  /** The run's state: seen set, store, the log of the queries run so far,
      summariser dispatches. */
  datatype ScanCrawl = ScanCrawl(seen: set<UserId>, store: Store, log: seq<Step>, dispatches: seq<Dispatch>)

  /** `r` extends `c` by queries run one after another: its log and
      dispatches extend those of `c`, and the added part replays the scans
      from the state of `c` to the state of `r`. */
  predicate ScanReplayed(scan: ScanFn, c: ScanCrawl, r: ScanCrawl)
  {
    && c.log <= r.log && c.dispatches <= r.dispatches
    && ScanReplays(scan, r.log[|c.log|..], c.seen, c.store, r.seen, r.store, r.dispatches[|c.dispatches|..])
  }

  lemma JoinScanReplayed(scan: ScanFn, c0: ScanCrawl, c1: ScanCrawl, c2: ScanCrawl)
    requires ScanReplayed(scan, c0, c1) && ScanReplayed(scan, c1, c2)
    ensures ScanReplayed(scan, c0, c2)
  {
    assert c2.log[|c0.log|..] == c1.log[|c0.log|..] + c2.log[|c1.log|..];
    assert c2.dispatches[|c0.dispatches|..] == c1.dispatches[|c0.dispatches|..] + c2.dispatches[|c1.dispatches|..];
    ScanReplaysAppend(scan, c1.log[|c0.log|..], c2.log[|c1.log|..], c0.seen, c0.store, c1.seen, c1.store,
                      c2.seen, c2.store, c1.dispatches[|c0.dispatches|..], c2.dispatches[|c1.dispatches|..]);
  }

  /** One query: the scan runs on the crawl's state and the log records it. */
  function ScanStep(scan: ScanFn, q: string, c: ScanCrawl): (r: ScanCrawl)
    requires ScanWellBehaved(scan)
    ensures r.log == c.log + [Step(q, scan(q, c.seen, c.store).escalate, StopOf(scan(q, c.seen, c.store).stop))]
    ensures c.seen <= r.seen && Grows(c.store, r.store)
    ensures r.dispatches == c.dispatches + scan(q, c.seen, c.store).dispatches
    ensures ScanReplayed(scan, c, r)
  {
    var run := scan(q, c.seen, c.store);
    var r := ScanCrawl(run.seen, run.store, c.log + [Step(q, run.escalate, StopOf(run.stop))], c.dispatches + run.dispatches);
    assert r.log[|c.log|..] == [Step(q, run.escalate, StopOf(run.stop))];
    assert r.dispatches[|c.dispatches|..] == run.dispatches;
    assert r.dispatches[|c.dispatches|..][|run.dispatches|..] == [];
    r
  }

  /** The bigram loop: each query in turn; an exception in one only ends
      that query. */
  function ScanEach(scan: ScanFn, queries: seq<string>, c: ScanCrawl): (r: ScanCrawl)
    requires ScanWellBehaved(scan)
    ensures ScanReplayed(scan, c, r)
    ensures Queries(r.log[|c.log|..]) == queries
    ensures c.seen <= r.seen && Grows(c.store, r.store)
    decreases |queries|
  {
    if |queries| == 0 then
      assert c.log[|c.log|..] == [] && c.dispatches[|c.dispatches|..] == [];
      c
    else
      var c' := ScanStep(scan, queries[0], c);
      var r := ScanEach(scan, queries[1..], c');
      JoinScanReplayed(scan, c, c', r);
      assert Queries(r.log[|c.log|..]) == queries by {
        assert r.log[|c.log|..] == [c'.log[|c.log|]] + r.log[|c'.log|..];
        assert queries == [queries[0]] + queries[1..];
      }
      GrowsTrans(c.store, c'.store, r.store);
      r
  }

  /** One symbol: its query, then its bigram queries exactly when it escalated. */
  function ScanSymbol(scan: ScanFn, symbol: string, bigrams: seq<string>, limit: nat, c: ScanCrawl): (r: ScanCrawl)
    requires ScanWellBehaved(scan)
    ensures ScanReplayed(scan, c, r)
    ensures Queries(r.log[|c.log|..]) == [symbol]
        + (if scan(symbol, c.seen, c.store).escalate then SubQueries(bigrams, symbol, limit) else [])
    ensures Shaped(r.log[|c.log|..], [symbol], bigrams, limit)
    ensures c.seen <= r.seen && Grows(c.store, r.store)
  {
    var c' := ScanStep(scan, symbol, c);
    var step := c'.log[|c.log|];
    var r := if step.escalate then ScanEach(scan, SubQueries(bigrams, symbol, limit), c') else c';
    assert ScanReplayed(scan, c', r) by {
      if !step.escalate {
        assert c'.log[|c'.log|..] == [] && c'.dispatches[|c'.dispatches|..] == [];
      }
    }
    JoinScanReplayed(scan, c, c', r);
    assert Queries(r.log[|c'.log|..]) == (if step.escalate then SubQueries(bigrams, symbol, limit) else []) by {
      if !step.escalate {
        assert r.log[|c'.log|..] == [];
      }
    }
    assert r.log[|c.log|..] == [step] + r.log[|c'.log|..];
    BlockShape(step, r.log[|c'.log|..], symbol, bigrams, limit);
    if step.escalate then
      GrowsTrans(c.store, c'.store, r.store);
      r
    else r
  }

  /** The alphabet loop over `symbols`. */
  function ScanSymbols(scan: ScanFn, symbols: seq<string>, bigrams: seq<string>, limit: nat, c: ScanCrawl): (r: ScanCrawl)
    requires ScanWellBehaved(scan)
    ensures ScanReplayed(scan, c, r)
    ensures Shaped(r.log[|c.log|..], symbols, bigrams, limit)
    ensures c.seen <= r.seen && Grows(c.store, r.store)
    decreases |symbols|
  {
    if |symbols| == 0 then
      assert c.log[|c.log|..] == [] && c.dispatches[|c.dispatches|..] == [];
      c
    else
      var c' := ScanSymbol(scan, symbols[0], bigrams, limit, c);
      var r := ScanSymbols(scan, symbols[1..], bigrams, limit, c');
      JoinScanReplayed(scan, c, c', r);
      JoinShaped(c.log, c'.log, r.log, symbols, bigrams, limit);
      GrowsTrans(c.store, c'.store, r.store);
      r
  }

  /** The task: a non-channel entity is an error; otherwise every symbol is
      queried, each escalated symbol followed by its bigrams, whatever
      exceptions the queries met. Every logged step, the dispatches and the
      final store are what the scans returned on the state the steps before
      left. The run never touches `channels`, so `parsing_complete` is never
      set here. */
  function ParseAndSummarizeChannel(api: SearchApi, trigger: TriggerFn, isChannel: bool, ch: ChannelId,
                                    bigrams: seq<string>, limit: nat, store: Store, fuel: nat): (r: Option<ScanCrawl>)
    ensures !isChannel <==> r == None
    ensures r.Some? ==> Shaped(r.value.log, Alphabet, bigrams, limit)
    ensures r.Some? ==>
      ScanReplays(Scanner(api, trigger, ch, fuel), r.value.log, {}, store, r.value.seen, r.value.store, r.value.dispatches)
    ensures r.Some? ==> forall s :: s in Alphabet ==> s in Queries(r.value.log)
    ensures r.Some? ==> r.value.store.channels == store.channels
    ensures r.Some? ==> RowsKept(store, r.value.store)
  {
    if !isChannel then None
    else
      var start := ScanCrawl({}, store, [], []);
      var c := ScanSymbols(Scanner(api, trigger, ch, fuel), Alphabet, bigrams, limit, start);
      assert c.log[|start.log|..] == c.log && c.dispatches[|start.dispatches|..] == c.dispatches;
      ShapedQueriesSymbols(c.log, Alphabet, bigrams, limit);
      Some(c)
  }
}

=== FILE: parse_members.dfy ===
/** The crawl driver: one query per alphabet symbol and, for a symbol whose
    query escalated, up to `BIGRAM_LIMIT` two-character queries starting with
    it. `ParseMembersTask` is the task in src/trigger/jobs/parseMembersTask.ts,
    which finishes by setting the channel's `parsing_complete`;
    `ParseAndSaveMembers` is src/services/parseAndSaveMembers.ts, the same walk
    without that write. */
module ParseMembers {
  import opened Common
  import opened Schema
  import opened Search

  /** One one-character string per character of `s`, in order. */
  function Letters(s: string): (r: seq<string>)
    ensures |r| == |s|
    ensures forall i :: 0 <= i < |s| ==> r[i] == [s[i]]
  {
    seq(|s|, i requires 0 <= i < |s| => [s[i]])
  }

  /** The Level-1 query symbols: Latin letters, the Russian alphabet, digits
      and three punctuation characters found in handles. */
  const Alphabet: seq<string> :=
    Letters("abcdefghijklmnopqrstuvwxyz")
    + Letters("абвгдеёжзийклмнопрстуфхцчшщъыьэюя")
    + Letters("0123456789")
    + ["_", "-", "."]

  /** `BIGRAM_LIMIT` when the environment does not set it. */
  const DefaultBigramLimit := 20

  /** `xs` occurs in `ys` in the same order, possibly with gaps. */
  predicate SubsequenceOf<T(==)>(xs: seq<T>, ys: seq<T>)
    decreases |ys|
  {
    |xs| == 0 ||
    (|ys| > 0 && ((xs[0] == ys[0] && SubsequenceOf(xs[1..], ys[1..])) || SubsequenceOf(xs, ys[1..])))
  }

  lemma {:induction false} PrefixSubsequence<T>(xs: seq<T>, ys: seq<T>, n: nat)
    requires n <= |xs| && SubsequenceOf(xs, ys)
    ensures SubsequenceOf(xs[..n], ys)
    decreases |ys|
  {
    if n > 0 {
      assert xs[..n][0] == xs[0];
      if xs[0] == ys[0] && SubsequenceOf(xs[1..], ys[1..]) {
        PrefixSubsequence(xs[1..], ys[1..], n - 1);
        assert xs[..n][1..] == xs[1..][..n - 1];
      } else {
        PrefixSubsequence(xs, ys[1..], n);
      }
    }
  }

  /** `bigrams.filter((b) => b.startsWith(symbol))`. */
  function StartingWith(bigrams: seq<string>, symbol: string): (r: seq<string>)
    ensures forall b :: b in r <==> b in bigrams && symbol <= b
    ensures SubsequenceOf(r, bigrams)
    decreases |bigrams|
  {
    if |bigrams| == 0 then []
    else
      var rest := StartingWith(bigrams[1..], symbol);
      assert bigrams == [bigrams[0]] + bigrams[1..];
      if symbol <= bigrams[0] then
        var r := [bigrams[0]] + rest;
        assert r[0] == bigrams[0] && r[1..] == rest;
        r
      else
        rest
  }

  /** The bigram queries for an escalated symbol: `.slice(0, limit)` of the
      filtered list — the first `limit` bigrams that start with the symbol,
      in file order. */
  function SubQueries(bigrams: seq<string>, symbol: string, limit: nat): (r: seq<string>)
    ensures |r| == Min(limit, |StartingWith(bigrams, symbol)|)
    ensures r == StartingWith(bigrams, symbol)[..|r|]
    ensures forall b :: b in r ==> b in bigrams && symbol <= b
    ensures SubsequenceOf(r, bigrams)
  {
    var all := StartingWith(bigrams, symbol);
    var r := if limit < |all| then all[..limit] else all;
    assert all[..|all|] == all;
    PrefixSubsequence(all, bigrams, |r|);
    r
  }

  /** Rows are only ever added: channels untouched, existing profiles and
      memberships kept as they were, the membership key still unique. */
  predicate Grows(before: Store, after: Store)
  {
    && after.channels == before.channels
    && before.profiles.Keys <= after.profiles.Keys
    && (forall id :: id in before.profiles ==> after.profiles[id] == before.profiles[id])
    && before.members <= after.members
    && (Unique(before.members) ==> Unique(after.members))
  }

  lemma GrowsTrans(a: Store, b: Store, c: Store)
    requires Grows(a, b) && Grows(b, c)
    ensures Grows(a, c)
  {
  }

  /** One `parseQuery` call as the driver uses it: query text, seen set and
      store in; the query's run out. */
  type QueryFn = (string, set<UserId>, Store) -> QueryRun

  /** What the driver relies on from a query: seen only grows, the store
      only gains rows. */
  ghost predicate WellBehaved(query: QueryFn)
  {
    forall q, seen, st :: seen <= query(q, seen, st).seen && Grows(st, query(q, seen, st).store)
  }

  /** A query that saves exactly the users it adds to `seen`, for channel
      `ch`. */
  ghost predicate Saves(query: QueryFn, ch: ChannelId)
  {
    forall q, seen, st :: seen <= query(q, seen, st).seen
      && SavedExactly(st, query(q, seen, st).store, ch, query(q, seen, st).seen - seen)
  }

  /** `parseQuery` of these two files, on a fixed channel and search. */
  function Searcher(api: SearchApi, ch: ChannelId, fuel: nat): (query: QueryFn)
    ensures WellBehaved(query) && Saves(query, ch)
  {
    var query := (q, seen, st) => ParseQuery(api, q, ch, seen, st, fuel);
    assert WellBehaved(query) && Saves(query, ch) by {
      forall q, seen, st ensures seen <= query(q, seen, st).seen && Grows(st, query(q, seen, st).store)
        && SavedExactly(st, query(q, seen, st).store, ch, query(q, seen, st).seen - seen)
      {
        var run := ParseQuery(api, q, ch, seen, st, fuel);
        assert SavedExactly(st, run.store, ch, run.seen - seen);
      }
    }
    query
  }

  /** What the run keeps of one query: its text, whether it escalated, and
      why its paging ended. */
  datatype Step = Step(query: string, escalate: bool, stop: StopReason)

  /** The query texts of a log, in order. */
  function Queries(log: seq<Step>): (r: seq<string>)
    ensures |r| == |log|
    ensures forall i :: 0 <= i < |log| ==> r[i] == log[i].query
  {
    seq(|log|, i requires 0 <= i < |log| => log[i].query)
  }

  /** Every logged query paged until one of the source's own ends: neither
      an exception nor the model's page bound stopped it. */
  predicate RanToEnd(log: seq<Step>)
  {
    forall i :: 0 <= i < |log| ==> log[i].stop != Threw && log[i].stop != OutOfFuel
  }

  /** The walk stopped at the last query of the log, the first one that
      did not page to its end. */
  predicate StoppedAtLast(log: seq<Step>)
  {
    |log| > 0 && RanToEnd(log[..|log| - 1]) && !RanToEnd(log[|log| - 1..])
  }

  /** A log that ran to its end and then stopped at its last query stopped
      at its last query. */
  lemma StoppedAfter(l0: seq<Step>, l1: seq<Step>, l2: seq<Step>)
    requires l0 <= l1 <= l2
    requires RanToEnd(l1[|l0|..]) && StoppedAtLast(l2[|l1|..])
    ensures StoppedAtLast(l2[|l0|..])
  {
    var a, b := l1[|l0|..], l2[|l1|..];
    SuffixSplit(l0, l1, l2);
    assert (a + b)[..|a + b| - 1] == a + b[..|b| - 1];
    assert (a + b)[|a + b| - 1..] == b[|b| - 1..];
    RanToEndAppend(a, b[..|b| - 1]);
  }

  /** A stopped log did not run to its end. */
  lemma StoppedNotRanToEnd(log: seq<Step>)
    requires StoppedAtLast(log)
    ensures !RanToEnd(log)
  {
    assert log[|log| - 1..][0] == log[|log| - 1];
  }

  /** The log of a full pass over `symbols`: per symbol, its own query,
      followed — exactly when that query escalated — by its bigram queries,
      and nothing else. */
  predicate Shaped(log: seq<Step>, symbols: seq<string>, bigrams: seq<string>, limit: nat)
    decreases |symbols|
  {
    if |symbols| == 0 then log == []
    else
      && |log| > 0
      && log[0].query == symbols[0]
      && var subs := if log[0].escalate then SubQueries(bigrams, symbols[0], limit) else [];
         && |log| >= 1 + |subs|
         && Queries(log[1..1 + |subs|]) == subs
         && Shaped(log[1 + |subs|..], symbols[1..], bigrams, limit)
  }

  /** A shaped log queries every symbol. */
  lemma {:induction false} ShapedQueriesSymbols(log: seq<Step>, symbols: seq<string>, bigrams: seq<string>, limit: nat)
    requires Shaped(log, symbols, bigrams, limit)
    ensures forall s :: s in symbols ==> s in Queries(log)
    decreases |symbols|
  {
    if |symbols| > 0 {
      var subs := if log[0].escalate then SubQueries(bigrams, symbols[0], limit) else [];
      var rest := log[1 + |subs|..];
      ShapedQueriesSymbols(rest, symbols[1..], bigrams, limit);
      assert Queries(log)[0] == symbols[0];
      forall s | s in symbols[1..] ensures s in Queries(log) {
        var k :| 0 <= k < |rest| && Queries(rest)[k] == s;
        assert log[1 + |subs| + k] == rest[k];
        assert Queries(log)[1 + |subs| + k] == s;
      }
      assert symbols == [symbols[0]] + symbols[1..];
    }
  }

  /** The block of one symbol followed by a pass over the rest is a pass
      over all of them. */
  lemma ShapedCons(block: seq<Step>, rest: seq<Step>, symbols: seq<string>, bigrams: seq<string>, limit: nat)
    requires |symbols| > 0
    requires Shaped(block, [symbols[0]], bigrams, limit) && Shaped(rest, symbols[1..], bigrams, limit)
    ensures Shaped(block + rest, symbols, bigrams, limit)
  {
    var log := block + rest;
    var subs := if block[0].escalate then SubQueries(bigrams, symbols[0], limit) else [];
    assert [symbols[0]][1..] == [];
    assert block[1 + |subs|..] == [];
    assert log[0] == block[0];
    assert log[1..1 + |subs|] == block[1..1 + |subs|];
    assert log[1 + |subs|..] == rest;
  }

  lemma RanToEndAppend(a: seq<Step>, b: seq<Step>)
    requires RanToEnd(a) && RanToEnd(b)
    ensures RanToEnd(a + b)
  {
    forall i | 0 <= i < |a + b| ensures (a + b)[i].stop != Threw && (a + b)[i].stop != OutOfFuel {
      if i >= |a| {
        assert (a + b)[i] == b[i - |a|];
      }
    }
  }

  /** A symbol's query followed by exactly its bigram queries (none unless
      it escalated) is that symbol's block. */
  lemma BlockShape(step: Step, tail: seq<Step>, symbol: string, bigrams: seq<string>, limit: nat)
    requires step.query == symbol
    requires Queries(tail) == (if step.escalate then SubQueries(bigrams, symbol, limit) else [])
    ensures Queries([step] + tail) == [symbol] + Queries(tail)
    ensures Shaped([step] + tail, [symbol], bigrams, limit)
  {
    var log := [step] + tail;
    assert Queries(log)[1..] == Queries(tail);
    assert log[1..1 + |tail|] == tail;
    assert log[1 + |tail|..] == [];
    assert [symbol][1..] == [];
  }

  /** A log that grew by a symbol's step and then by exactly its bigram
      queries grew by that symbol's block. */
  lemma PassBlock(l0: seq<Step>, l1: seq<Step>, l2: seq<Step>, step: Step, symbol: string, bigrams: seq<string>, limit: nat)
    requires l1 == l0 + [step] && l1 <= l2 && step.query == symbol
    requires Queries(l2[|l1|..]) == (if step.escalate then SubQueries(bigrams, symbol, limit) else [])
    ensures Queries(l2[|l0|..]) == [symbol] + (if step.escalate then SubQueries(bigrams, symbol, limit) else [])
    ensures Shaped(l2[|l0|..], [symbol], bigrams, limit)
  {
    SuffixSplit(l0, l1, l2);
    assert l1[|l0|..] == [step];
    BlockShape(step, l2[|l1|..], symbol, bigrams, limit);
  }

  /** Logs that grew in two steps, first by one symbol's block and then by
      a pass over the remaining symbols, grew by a pass over all of them. */
  lemma JoinShaped(l0: seq<Step>, l1: seq<Step>, l2: seq<Step>, symbols: seq<string>, bigrams: seq<string>, limit: nat)
    requires |symbols| > 0 && l0 <= l1 <= l2
    requires Shaped(l1[|l0|..], [symbols[0]], bigrams, limit)
    requires Shaped(l2[|l1|..], symbols[1..], bigrams, limit)
    ensures Shaped(l2[|l0|..], symbols, bigrams, limit)
  {
    SuffixSplit(l0, l1, l2);
    ShapedCons(l1[|l0|..], l2[|l1|..], symbols, bigrams, limit);
  }

  /** The log replays its queries one after another from `seen` and
      `store`: each step records the flag and the stop reason its query
      returned on the state the steps before it left, and `seen'` and
      `store'` are the state after the last step. */
  predicate Replays(query: QueryFn, log: seq<Step>, seen: set<UserId>, store: Store, seen': set<UserId>, store': Store)
    decreases |log|
  {
    if |log| == 0 then seen' == seen && store' == store
    else
      var run := query(log[0].query, seen, store);
      && log[0].escalate == run.escalate && log[0].stop == run.stop
      && Replays(query, log[1..], run.seen, run.store, seen', store')
  }

  lemma {:induction false} ReplaysAppend(query: QueryFn, a: seq<Step>, b: seq<Step>, s0: set<UserId>, st0: Store,
                                         s1: set<UserId>, st1: Store, s2: set<UserId>, st2: Store)
    requires Replays(query, a, s0, st0, s1, st1) && Replays(query, b, s1, st1, s2, st2)
    ensures Replays(query, a + b, s0, st0, s2, st2)
    decreases |a|
  {
    if |a| == 0 {
      assert a + b == b;
    } else {
      var run := query(a[0].query, s0, st0);
      ReplaysAppend(query, a[1..], b, run.seen, run.store, s1, st1, s2, st2);
      assert (a + b)[0] == a[0];
      assert (a + b)[1..] == a[1..] + b;
    }
  }

  /** Logs that grew in two replayed steps grew by one replayed run. */
  lemma JoinReplays(query: QueryFn, l0: seq<Step>, l1: seq<Step>, l2: seq<Step>, s0: set<UserId>, st0: Store,
                    s1: set<UserId>, st1: Store, s2: set<UserId>, st2: Store)
    requires l0 <= l1 <= l2
    requires Replays(query, l1[|l0|..], s0, st0, s1, st1) && Replays(query, l2[|l1|..], s1, st1, s2, st2)
    ensures Replays(query, l2[|l0|..], s0, st0, s2, st2)
  {
    SuffixSplit(l0, l1, l2);
    ReplaysAppend(query, l1[|l0|..], l2[|l1|..], s0, st0, s1, st1, s2, st2);
  }

  /** A replayed run of saving queries saved exactly the users it added to
      `seen`. */
  lemma {:induction false} ReplaysSave(query: QueryFn, ch: ChannelId, log: seq<Step>, seen: set<UserId>, store: Store,
                                       seen': set<UserId>, store': Store)
    requires Saves(query, ch) && Replays(query, log, seen, store, seen', store')
    ensures seen <= seen' && SavedExactly(store, store', ch, seen' - seen)
    decreases |log|
  {
    if |log| == 0 {
      assert MemberOf(ch, {}) == {};
      assert seen' - seen == {};
    } else {
      var run := query(log[0].query, seen, store);
      ReplaysSave(query, ch, log[1..], run.seen, run.store, seen', store');
      SavedExactlyTrans(store, run.store, store', ch, run.seen - seen, seen' - run.seen);
      assert (run.seen - seen) + (seen' - run.seen) == seen' - seen;
    }
  }

  /** The run's in-memory state: the seen set, the store, and the log of
      the queries run so far. */
  datatype Crawl = Crawl(seen: set<UserId>, store: Store, log: seq<Step>)

  /** A walk either gets through its queries or stops at a query that did
      not page to its end: an exception, which these tasks do not catch,
      or the model's page bound. Committed page transactions stay in the
      store. */
  datatype Walk = Walked(crawl: Crawl) | Aborted(seen: set<UserId>, store: Store, log: seq<Step>)
  {
    function Seen(): set<UserId>
    {
      match this
      case Walked(c) => c.seen
      case Aborted(seen, _, _) => seen
    }

    function Store(): Schema.Store
    {
      match this
      case Walked(c) => c.store
      case Aborted(_, s, _) => s
    }

    function Log(): seq<Step>
    {
      match this
      case Walked(c) => c.log
      case Aborted(_, _, log) => log
    }
  }

  /** The part of a walk's log that the walk itself added. */
  function Added(c: Crawl, w: Walk): seq<Step>
    requires c.log <= w.Log()
  {
    w.Log()[|c.log|..]
  }

  /** What every stretch of the walk promises: the log only grows, and the
      steps it gained replay the queries from the state before them to the
      state after them; the store only gains rows; a walk that goes on has
      `seen` grown and every query it logged paged to its end, and a walk
      that aborts stopped at the first query that did not. */
  predicate Walks(query: QueryFn, c: Crawl, r: Walk)
  {
    && c.log <= r.Log()
    && Grows(c.store, r.Store())
    && Replays(query, Added(c, r), c.seen, c.store, r.Seen(), r.Store())
    && (r.Walked? ==> c.seen <= r.crawl.seen && RanToEnd(Added(c, r)))
    && (r.Aborted? ==> StoppedAtLast(Added(c, r)))
  }

  lemma WalksNothing(query: QueryFn, c: Crawl)
    ensures Walks(query, c, Walked(c))
  {
    assert Added(c, Walked(c)) == [];
  }

  /** A stretch that went on, followed by another stretch, is one stretch. */
  lemma WalksTrans(query: QueryFn, c: Crawl, c': Crawl, r: Walk)
    requires Walks(query, c, Walked(c')) && Walks(query, c', r)
    ensures Walks(query, c, r)
  {
    var l0, l1, l2 := c.log, c'.log, r.Log();
    JoinReplays(query, l0, l1, l2, c.seen, c.store, c'.seen, c'.store, r.Seen(), r.Store());
    GrowsTrans(c.store, c'.store, r.Store());
    if r.Walked? {
      SuffixSplit(l0, l1, l2);
      RanToEndAppend(l1[|l0|..], l2[|l1|..]);
    } else {
      StoppedAfter(l0, l1, l2);
    }
  }

  /** One query on the crawl state; the log records it, and the walk aborts
      exactly when the query threw or ran out of pages. */
  function Query(query: QueryFn, q: string, c: Crawl): (r: Walk)
    requires WellBehaved(query)
    ensures r.Log() == c.log + [Step(q, query(q, c.seen, c.store).escalate, query(q, c.seen, c.store).stop)]
    ensures r.Aborted? <==> query(q, c.seen, c.store).stop == Threw || query(q, c.seen, c.store).stop == OutOfFuel
    ensures Walks(query, c, r)
  {
    var run := query(q, c.seen, c.store);
    var log := c.log + [Step(q, run.escalate, run.stop)];
    var r := if run.stop == Threw || run.stop == OutOfFuel then Aborted(run.seen, run.store, log)
             else Walked(Crawl(run.seen, run.store, log));
    assert Added(c, r) == [Step(q, run.escalate, run.stop)];
    assert Added(c, r)[1..] == [];
    assert Added(c, r)[..0] == [] && Added(c, r)[0..] == Added(c, r);
    r
  }

  /** A query put in front of the rest of the loop's queries. */
  lemma QueriesJoin(l0: seq<Step>, l1: seq<Step>, l2: seq<Step>, queries: seq<string>)
    requires l0 <= l1 <= l2 && |l1| == |l0| + 1 && |queries| > 0
    requires l1[|l0|].query == queries[0] && Queries(l2[|l1|..]) == queries[1..]
    ensures Queries(l2[|l0|..]) == queries
  {
    SuffixSplit(l0, l1, l2);
    assert l1[|l0|..] == [l1[|l0|]];
    assert Queries(l2[|l0|..]) == [queries[0]] + queries[1..];
  }

  /** The bigram loop: each query in turn, without further escalation. */
  function RunEach(query: QueryFn, queries: seq<string>, c: Crawl): (r: Walk)
    requires WellBehaved(query)
    ensures Walks(query, c, r)
    ensures r.Walked? ==> Queries(Added(c, r)) == queries
    decreases |queries|
  {
    if |queries| == 0 then
      WalksNothing(query, c);
      assert Added(c, Walked(c)) == [];
      Walked(c)
    else
      var w := Query(query, queries[0], c);
      match w
      case Aborted(_, _, _) => w
      case Walked(c') =>
        var r := RunEach(query, queries[1..], c');
        WalksTrans(query, c, c', r);
        assert r.Walked? ==> Queries(Added(c, r)) == queries by {
          if r.Walked? {
            QueriesJoin(c.log, c'.log, r.Log(), queries);
          }
        }
        r
  }

  /** One iteration of `for (const char of alphabet)`: the symbol's query,
      then its bigram queries exactly when that query escalated. */
  function SymbolPass(query: QueryFn, symbol: string, bigrams: seq<string>, limit: nat, c: Crawl): (r: Walk)
    requires WellBehaved(query)
    ensures Walks(query, c, r)
    ensures |r.Log()| > |c.log|
    ensures r.Log()[|c.log|] == Step(symbol, query(symbol, c.seen, c.store).escalate, query(symbol, c.seen, c.store).stop)
    ensures r.Walked? ==>
      Queries(Added(c, r)) == [symbol] + (if query(symbol, c.seen, c.store).escalate then SubQueries(bigrams, symbol, limit) else [])
    ensures r.Walked? ==> Shaped(Added(c, r), [symbol], bigrams, limit)
  {
    var w := Query(query, symbol, c);
    match w
    case Aborted(_, _, _) => w
    case Walked(c') =>
      var step := c'.log[|c.log|];
      assert c'.log == c.log + [step];
      var r := if step.escalate then RunEach(query, SubQueries(bigrams, symbol, limit), c') else Walked(c');
      assert Walks(query, c', r) by {
        if !step.escalate {
          WalksNothing(query, c');
        }
      }
      WalksTrans(query, c, c', r);
      assert r.Walked? ==>
        && Queries(Added(c, r)) == [symbol] + (if step.escalate then SubQueries(bigrams, symbol, limit) else [])
        && Shaped(Added(c, r), [symbol], bigrams, limit) by {
        if r.Walked? {
          if !step.escalate {
            assert Added(c', r) == [];
          }
          PassBlock(c.log, c'.log, r.Log(), step, symbol, bigrams, limit);
        }
      }
      r
  }

  /** The alphabet loop over `symbols`. */
  function WalkSymbols(query: QueryFn, symbols: seq<string>, bigrams: seq<string>, limit: nat, c: Crawl): (r: Walk)
    requires WellBehaved(query)
    ensures Walks(query, c, r)
    ensures r.Walked? ==> Shaped(Added(c, r), symbols, bigrams, limit)
    ensures |symbols| > 0 ==>
      |r.Log()| > |c.log|
      && r.Log()[|c.log|] == Step(symbols[0], query(symbols[0], c.seen, c.store).escalate, query(symbols[0], c.seen, c.store).stop)
    decreases |symbols|
  {
    if |symbols| == 0 then
      WalksNothing(query, c);
      assert Added(c, Walked(c)) == [];
      Walked(c)
    else
      var w := SymbolPass(query, symbols[0], bigrams, limit, c);
      match w
      case Aborted(_, _, _) => w
      case Walked(c') =>
        var r := WalkSymbols(query, symbols[1..], bigrams, limit, c');
        WalksTrans(query, c, c', r);
        assert r.Walked? ==> Shaped(Added(c, r), symbols, bigrams, limit) by {
          if r.Walked? {
            JoinShaped(c.log, c'.log, r.Log(), symbols, bigrams, limit);
          }
        }
        r
  }

  /** `update channels set parsing_complete = true where id = ch`. */
  function SetParsingComplete(channels: map<ChannelId, Channel>, ch: ChannelId): (r: map<ChannelId, Channel>)
    ensures r.Keys == channels.Keys
    ensures ch in r ==> r[ch].parsingComplete == Some(true)
    ensures forall id :: id in r && id != ch ==> r[id] == channels[id]
    ensures forall id :: id in r ==> r[id] == channels[id].(parsingComplete := r[id].parsingComplete)
    ensures forall id :: id in channels && channels[id].parsingComplete == Some(true) ==> r[id].parsingComplete == Some(true)
  {
    if ch in channels then channels[ch := channels[ch].(parsingComplete := Some(true))] else channels
  }

  /** What a task run leaves behind: the store, whether it ran to its end,
      the log of the queries it ran, and its final seen set. */
  datatype TaskRun = TaskRun(store: Store, completed: bool, log: seq<Step>, seen: set<UserId>)

  /** Whether every profile and membership that existed is still there, as it was. */
  predicate RowsKept(before: Store, after: Store)
  {
    && before.profiles.Keys <= after.profiles.Keys
    && (forall id :: id in before.profiles ==> after.profiles[id] == before.profiles[id])
    && before.members <= after.members
    && (Unique(before.members) ==> Unique(after.members))
  }

  /** `parseAndSaveMembers`: reject a non-channel entity and walk the
      alphabet with a fresh seen set. Every logged step is what `parseQuery`
      returned on the state the steps before it left; the run saved exactly
      the users it saw; a completed run queried every symbol, each escalated
      symbol followed by its bigrams. It never writes `channels`. */
  function ParseAndSaveMembers(api: SearchApi, isChannel: bool, ch: ChannelId, bigrams: seq<string>, limit: nat,
                               store: Store, fuel: nat): (r: TaskRun)
    ensures r.completed ==> Shaped(r.log, Alphabet, bigrams, limit) && RanToEnd(r.log)
    ensures isChannel ==> (r.completed <==> RanToEnd(r.log))
    ensures isChannel && !r.completed ==> StoppedAtLast(r.log)
    ensures isChannel ==> Replays(Searcher(api, ch, fuel), r.log, {}, store, r.seen, r.store)
    ensures SavedExactly(store, r.store, ch, r.seen)
    ensures !isChannel ==> !r.completed && r.store == store && r.log == [] && r.seen == {}
    ensures isChannel ==>
      |r.log| > 0 && r.log[0].query == Alphabet[0]
      && r.log[0].stop == ParseQuery(api, Alphabet[0], ch, {}, store, fuel).stop
    ensures r.store.channels == store.channels
    ensures RowsKept(store, r.store)
  {
    if !isChannel then
      assert MemberOf(ch, {}) == {};
      TaskRun(store, false, [], {})
    else
      var w := ChannelWalk(api, ch, Alphabet, bigrams, limit, store, fuel);
      assert Grows(store, w.Store());
      match w
      case Aborted(seen, s, log) => TaskRun(s, false, log, seen)
      case Walked(c) => TaskRun(c.store, true, c.log, c.seen)
  }

  /** The walk over `symbols` from an empty seen set and an empty log. */
  function ChannelWalk(api: SearchApi, ch: ChannelId, symbols: seq<string>, bigrams: seq<string>, limit: nat,
                       store: Store, fuel: nat): (w: Walk)
    requires |symbols| > 0
    ensures w.Walked? ==> Shaped(w.Log(), symbols, bigrams, limit)
    ensures w.Walked? <==> RanToEnd(w.Log())
    ensures w.Aborted? ==> StoppedAtLast(w.Log())
    ensures Replays(Searcher(api, ch, fuel), w.Log(), {}, store, w.Seen(), w.Store())
    ensures SavedExactly(store, w.Store(), ch, w.Seen())
    ensures Grows(store, w.Store())
    ensures |w.Log()| > 0 && w.Log()[0].query == symbols[0]
            && w.Log()[0].stop == ParseQuery(api, symbols[0], ch, {}, store, fuel).stop
  {
    var query := Searcher(api, ch, fuel);
    var start := Crawl({}, store, []);
    var w := WalkSymbols(query, symbols, bigrams, limit, start);
    assert Added(start, w) == w.Log();
    assert SavedExactly(store, w.Store(), ch, w.Seen()) by {
      ReplaysSave(query, ch, w.Log(), {}, store, w.Seen(), w.Store());
      assert w.Seen() - {} == w.Seen();
    }
    assert w.Aborted? ==> !RanToEnd(w.Log()) by {
      if w.Aborted? {
        StoppedNotRanToEnd(w.Log());
      }
    }
    w
  }

  /** `parseMembersTask`: the same loop as `parseAndSaveMembers`, and only
      when every query paged to its end the channel's `parsing_complete` is
      set. Every logged step is what `parseQuery`
      returned on the state the steps before it left; a completed run
      queried every symbol, each escalated symbol followed by its bigrams,
      and saved exactly the users it saw. The flag is never cleared. */
  function ParseMembersTask(api: SearchApi, isChannel: bool, ch: ChannelId, bigrams: seq<string>, limit: nat,
                            store: Store, fuel: nat): (r: TaskRun)
    ensures r.completed ==> Shaped(r.log, Alphabet, bigrams, limit) && RanToEnd(r.log)
    ensures isChannel ==> (r.completed <==> RanToEnd(r.log))
    ensures isChannel && !r.completed ==> StoppedAtLast(r.log)
    ensures isChannel ==> Replays(Searcher(api, ch, fuel), r.log, {}, store, r.seen, r.store.(channels := store.channels))
    ensures SavedExactly(store, r.store.(channels := store.channels), ch, r.seen)
    ensures r.completed ==> r.store.channels == SetParsingComplete(store.channels, ch)
    ensures r.completed ==> (ch in r.store.channels ==> r.store.channels[ch].parsingComplete == Some(true))
    ensures !r.completed ==> r.store.channels == store.channels
    ensures !isChannel ==> !r.completed && r.store == store && r.log == [] && r.seen == {}
    ensures isChannel ==>
      |r.log| > 0 && r.log[0].query == Alphabet[0]
      && r.log[0].stop == ParseQuery(api, Alphabet[0], ch, {}, store, fuel).stop
    ensures r.store.channels.Keys == store.channels.Keys
    ensures forall id :: id in store.channels && store.channels[id].parsingComplete == Some(true)
              ==> r.store.channels[id].parsingComplete == Some(true)
    ensures forall id :: id in store.channels && id != ch ==> r.store.channels[id] == store.channels[id]
    ensures RowsKept(store, r.store)
  {
    var run := ParseAndSaveMembers(api, isChannel, ch, bigrams, limit, store, fuel);
    var r := SetLatchOnCompletion(run, ch);
    assert run.store.channels == store.channels;
    assert r.completed ==> r.store.channels == SetParsingComplete(store.channels, ch);
    assert !r.completed ==> r.store.channels == store.channels;
    r
  }

  /** The last statement of the task: a run that got through gets its
      channel's flag set; any other run is left as it is. */
  function SetLatchOnCompletion(run: TaskRun, ch: ChannelId): (r: TaskRun)
    ensures r.completed == run.completed && r.log == run.log && r.seen == run.seen
    ensures r.store.(channels := run.store.channels) == run.store
    ensures r.completed ==> r.store.channels == SetParsingComplete(run.store.channels, ch)
    ensures !r.completed ==> r.store == run.store
  {
    if !run.completed then run
    else
      var r := TaskRun(run.store.(channels := SetParsingComplete(run.store.channels, ch)), true, run.log, run.seen);
      assert r.store.(channels := run.store.channels) == run.store;
      r
  }

  /** A run without fuel cannot search, so it never sets `parsing_complete`. */
  lemma NoFuelNoLatch(api: SearchApi, isChannel: bool, ch: ChannelId, bigrams: seq<string>, limit: nat, store: Store)
    ensures var r := ParseMembersTask(api, isChannel, ch, bigrams, limit, store, 0);
      !r.completed && r.store.channels == store.channels
  {
    var r := ParseMembersTask(api, isChannel, ch, bigrams, limit, store, 0);
    if isChannel {
      assert ParseQuery(api, Alphabet[0], ch, {}, store, 0).stop == OutOfFuel;
      assert !RanToEnd(r.log);
    }
  }

  /** A completed run queried every symbol of the alphabet. */
  lemma CompletedRunQueriesAlphabet(api: SearchApi, isChannel: bool, ch: ChannelId, bigrams: seq<string>, limit: nat,
                                    store: Store, fuel: nat)
    requires ParseMembersTask(api, isChannel, ch, bigrams, limit, store, fuel).completed
    ensures forall s :: s in Alphabet ==> s in Queries(ParseMembersTask(api, isChannel, ch, bigrams, limit, store, fuel).log)
  {
    ShapedQueriesSymbols(ParseMembersTask(api, isChannel, ch, bigrams, limit, store, fuel).log, Alphabet, bigrams, limit);
  }

}

=== FILE: pending_batch.dfy ===
/** src/services/summarizePendingBatch.ts: pick up to 100 members of a
    channel whose profile is still pending and hand them to the summariser
    in one trigger call. The inner join of `user_profiles` with
    `channel_members` is read in member-table order. */
module PendingBatch {
  import opened Common
  import opened Schema
  import opened Summarize

  /** The `.limit(100)` on the selection. */
  const SelectLimit := 100

  /** A member row of the channel that joins a pending profile. */
  predicate PendingMember(store: Store, ch: ChannelId, m: MemberRow)
  {
    m.channelId == ch && m.userId in store.profiles && IsPending(store.profiles[m.userId].status)
  }

  /** The join's rows, in order: one `{ userId, username }` per matching
      member row. */
  function PendingRows(store: Store, ch: ChannelId, members: seq<MemberRow>): (r: seq<UserRef>)
    ensures |r| <= |members|
    ensures forall u :: u in r <==>
      exists m :: m in members && PendingMember(store, ch, m)
        && u == UserRef(m.userId, store.profiles[m.userId].username)
    decreases |members|
  {
    if |members| == 0 then []
    else
      var rest := PendingRows(store, ch, members[1..]);
      var m := members[0];
      assert forall x :: x in members <==> x == m || x in members[1..] by {
        assert members == [m] + members[1..];
      }
      if PendingMember(store, ch, m) then [UserRef(m.userId, store.profiles[m.userId].username)] + rest
      else rest
  }

  /** No user appears twice. */
  predicate DistinctIds(r: seq<UserRef>)
  {
    forall i, j :: 0 <= i < j < |r| ==> r[i].userId != r[j].userId
  }

  /** Distinct member rows of one channel name distinct users. */
  lemma {:induction false} PendingRowsDistinct(store: Store, ch: ChannelId, members: seq<MemberRow>)
    requires Unique(members)
    ensures DistinctIds(PendingRows(store, ch, members))
    decreases |members|
  {
    if |members| > 0 {
      var m := members[0];
      var rest := PendingRows(store, ch, members[1..]);
      assert Unique(members[1..]) by {
        forall i, j | 0 <= i < j < |members[1..]| ensures members[1..][i] != members[1..][j] {
          assert members[1..][i] == members[i + 1] && members[1..][j] == members[j + 1];
        }
      }
      PendingRowsDistinct(store, ch, members[1..]);
      if PendingMember(store, ch, m) {
        forall k | 0 <= k < |rest| ensures rest[k].userId != m.userId {
          assert rest[k] in rest;
          var m' :| m' in members[1..] && PendingMember(store, ch, m')
            && rest[k] == UserRef(m'.userId, store.profiles[m'.userId].username);
          var j :| 0 <= j < |members[1..]| && members[1..][j] == m';
          assert members[j + 1] == m';
          assert m' != m;
          assert m'.channelId == ch == m.channelId;
        }
        var r := [UserRef(m.userId, store.profiles[m.userId].username)] + rest;
        forall i, j | 0 <= i < j < |r| ensures r[i].userId != r[j].userId {
          assert r[j] == rest[j - 1];
          if i > 0 {
            assert r[i] == rest[i - 1];
          }
        }
      }
    }
  }

  /** The number the monitors count: pending profiles joined to the channel. */
  function PendingCount(store: Store, ch: ChannelId): nat
  {
    |PendingRows(store, ch, store.members)|
  }

  /** The selection: the first 100 join rows. */
  function SelectPending(store: Store, ch: ChannelId): (r: seq<UserRef>)
    ensures |r| <= SelectLimit
    ensures |r| == Min(SelectLimit, PendingCount(store, ch))
    ensures forall u :: u in r ==>
      (exists m :: m in store.members && PendingMember(store, ch, m)
        && u == UserRef(m.userId, store.profiles[m.userId].username))
    ensures |r| < SelectLimit ==>
      forall m :: m in store.members && PendingMember(store, ch, m) ==>
        UserRef(m.userId, store.profiles[m.userId].username) in r
    ensures Unique(store.members) ==> DistinctIds(r)
  {
    var all := PendingRows(store, ch, store.members);
    var r := if |all| <= SelectLimit then all else all[..SelectLimit];
    assert forall u :: u in r ==> u in all;
    assert Unique(store.members) ==> DistinctIds(r) by {
      if Unique(store.members) {
        PendingRowsDistinct(store, ch, store.members);
      }
    }
    r
  }

  /** The selection is empty exactly when nothing of the channel is pending. */
  lemma SelectionEmptyIffNonePending(store: Store, ch: ChannelId)
    ensures SelectPending(store, ch) == [] <==> PendingCount(store, ch) == 0
    ensures SelectPending(store, ch) == [] <==>
      forall m :: m in store.members ==> !PendingMember(store, ch, m)
  {
    var all := PendingRows(store, ch, store.members);
    if exists m :: m in store.members && PendingMember(store, ch, m) {
      var m :| m in store.members && PendingMember(store, ch, m);
      assert UserRef(m.userId, store.profiles[m.userId].username) in all;
    }
    if |all| > 0 {
      assert all[0] in all;
    }
  }

  /** A trigger call and whether it went through. */
  datatype Sent = Sent(payload: seq<UserRef>, accepted: bool)

  /** The function's boolean, and the trigger call it made if any. */
  datatype BatchOutcome = BatchOutcome(allDone: bool, sent: Option<Sent>)

  /** `summarizePendingBatch`: true, and no call, when nothing is pending;
      otherwise one call with one entry per selected row, and false whether
      or not the call succeeded. */
  function SummarizePendingBatch(store: Store, ch: ChannelId, trigger: seq<UserRef> -> bool): (r: BatchOutcome)
    ensures r.allDone <==> PendingCount(store, ch) == 0
    ensures r.allDone <==> r.sent == None
    ensures r.sent.Some? ==>
      && r.sent.value.payload == SelectPending(store, ch)
      && 0 < |r.sent.value.payload| <= SelectLimit
      && r.sent.value.accepted == trigger(r.sent.value.payload)
  {
    SelectionEmptyIffNonePending(store, ch);
    var selected := SelectPending(store, ch);
    if |selected| == 0 then BatchOutcome(true, None)
    else BatchOutcome(false, Some(Sent(selected, trigger(selected))))
  }

  /** A failing trigger does not change the answer. */
  lemma TriggerFailureInvisible(store: Store, ch: ChannelId, t1: seq<UserRef> -> bool, t2: seq<UserRef> -> bool)
    ensures SummarizePendingBatch(store, ch, t1).allDone == SummarizePendingBatch(store, ch, t2).allDone
  {
  }

  /** Summarising a batch's payload leaves no selected user pending unless
      its run wrote nothing. */
  lemma BatchSettlesSelected(store: Store, ch: ChannelId, o: Oracles, u: UserRef)
    requires u in SelectPending(store, ch)
    ensures var after := SummarizeUserBatch(store.profiles, SelectPending(store, ch), o);
      u.userId in after
      && (IsTerminal(after[u.userId].status) <==> Writes(o, u.userId))
  {
    var sel := SelectPending(store, ch);
    var m :| m in store.members && PendingMember(store, ch, m)
      && u == UserRef(m.userId, store.profiles[m.userId].username);
    assert u.userId in PayloadIds(sel);
    BatchIsolation(store.profiles, sel, o, u.userId);
  }
}

=== FILE: report.dfy ===
/** src/trigger/jobs/generateFinalChannelReport.ts: the early exits of the
    report job, the delivery of the report text in Telegram-sized pieces,
    the compare-and-set that records the report once, and the two string
    helpers `splitTextIntoChunks` and `mapGender`.

    Text is a sequence of Unicode code points; the statistics header (SQL
    aggregation) and the model's completion are inputs. */
module Report {
  import opened Common
  import opened Schema

  // ---------------------------------------------------------------------
  // String.prototype.trim

  /** The characters `trim` removes: WhiteSpace and LineTerminator of the
      ECMAScript grammar (tab, line tab, form feed, space, no-break space,
      zero width no-break space, the Zs category, LF, CR, U+2028, U+2029). */
  predicate IsJsWhitespace(c: char)
  {
    || c == '\t' || c == '\n' || c == '\U{000B}' || c == '\U{000C}' || c == '\r' || c == ' '
    || c == '\U{00A0}' || c == '\U{1680}' || ('\U{2000}' <= c <= '\U{200A}')
    || c == '\U{2028}' || c == '\U{2029}' || c == '\U{202F}' || c == '\U{205F}'
    || c == '\U{3000}' || c == '\U{FEFF}'
  }

  /** Number of leading whitespace characters. */
  function LeadingSpace(s: string): (n: nat)
    ensures n <= |s|
    ensures forall k :: 0 <= k < n ==> IsJsWhitespace(s[k])
    ensures n < |s| ==> !IsJsWhitespace(s[n])
    decreases |s|
  {
    if |s| == 0 || !IsJsWhitespace(s[0]) then 0
    else
      var n := 1 + LeadingSpace(s[1..]);
      assert forall k :: 1 <= k < n ==> s[k] == s[1..][k - 1];
      n
  }

  /** Length of `s` without its trailing whitespace. */
  function TrailingStart(s: string): (n: nat)
    ensures n <= |s|
    ensures forall k :: n <= k < |s| ==> IsJsWhitespace(s[k])
    ensures n > 0 ==> !IsJsWhitespace(s[n - 1])
    decreases |s|
  {
    if |s| == 0 || !IsJsWhitespace(s[|s| - 1]) then |s|
    else TrailingStart(s[..|s| - 1])
  }

  /** `trim`: the slice between the leading and the trailing whitespace. */
  function Trim(s: string): (r: string)
    ensures |r| <= |s|
    ensures r == [] || (!IsJsWhitespace(r[0]) && !IsJsWhitespace(r[|r| - 1]))
  {
    var i := LeadingSpace(s);
    var j := TrailingStart(s);
    if j <= i then []
    else
      var r := s[i..j];
      assert r[0] == s[i] && r[|r| - 1] == s[j - 1];
      r
  }

  /** What `trim` removes is whitespace at either end and nothing else. */
  lemma TrimSlice(s: string)
    ensures exists i, j ::
      && 0 <= i <= j <= |s| && Trim(s) == s[i..j]
      && (forall k :: 0 <= k < i ==> IsJsWhitespace(s[k]))
      && (forall k :: j <= k < |s| ==> IsJsWhitespace(s[k]))
  {
    var i := LeadingSpace(s);
    var j := TrailingStart(s);
    if j <= i {
      assert s[i..i] == [];
    } else {
      assert Trim(s) == s[i..j];
    }
  }

  /** Trimming twice is trimming once. */
  lemma TrimIdempotent(s: string)
    ensures Trim(Trim(s)) == Trim(s)
  {
    var t := Trim(s);
    if |t| > 0 {
      assert LeadingSpace(t) == 0;
      assert TrailingStart(t) == |t|;
      assert t[0..|t|] == t;
    }
  }

  // ---------------------------------------------------------------------
  // splitTextIntoChunks

  /** `text.lastIndexOf(c, from)` for `from` within the text: the greatest
      position at most `from` holding `c`, or -1. */
  function LastIndexOf(text: string, c: char, from: int): (r: int)
    requires -1 <= from < |text|
    ensures -1 <= r <= from
    ensures r >= 0 ==> text[r] == c
    ensures forall k :: r < k <= from && 0 <= k ==> text[k] != c
    decreases from + 1
  {
    if from < 0 then -1
    else if text[from] == c then from
    else LastIndexOf(text, c, from - 1)
  }

  /** Whether `c` occurs strictly after `start` and at most at `end`. */
  predicate OccursIn(text: string, c: char, start: nat, end: nat)
    requires end < |text|
  {
    exists k :: start < k <= end && text[k] == c
  }

  /** Where the piece that begins at `start` ends: the last piece runs to
      the end of the text (the source's `end` may pass the text's length;
      `slice` stops at the end, and the loop then stops). */
  function CutAt(text: string, start: nat, max: nat): (end: nat)
    requires start < |text| && max > 0
    ensures start < end <= |text| && end <= start + max
    ensures start + max >= |text| ==> end == |text|
  {
    var end := start + max;
    if end >= |text| then |text|
    else
      var lastNewline := LastIndexOf(text, '\n', end);
      var lastSpace := LastIndexOf(text, ' ', end);
      if lastNewline > start then lastNewline
      else if lastSpace > start then lastSpace
      else end
  }

  /** A piece that is not the last ends at the last newline in
      (start, start+max], else at the last space there, else after exactly
      `max` characters. */
  lemma CutAtPrefers(text: string, start: nat, max: nat)
    requires start < |text| && max > 0 && start + max < |text|
    ensures var end := CutAt(text, start, max);
      if OccursIn(text, '\n', start, start + max) then
        text[end] == '\n' && !OccursIn(text, '\n', end, start + max)
      else if OccursIn(text, ' ', start, start + max) then
        text[end] == ' ' && !OccursIn(text, ' ', end, start + max)
      else end == start + max
  {
    var nl := LastIndexOf(text, '\n', start + max);
    var sp := LastIndexOf(text, ' ', start + max);
    if OccursIn(text, '\n', start, start + max) {
      var k :| start < k <= start + max && text[k] == '\n';
      assert nl >= k;
    } else if OccursIn(text, ' ', start, start + max) {
      var k :| start < k <= start + max && text[k] == ' ';
      assert sp >= k;
      assert nl <= start;
    }
  }

  /** The untrimmed pieces from `start` on. */
  function Pieces(text: string, start: nat, max: nat): seq<string>
    requires start <= |text| && max > 0
    decreases |text| - start
  {
    if start == |text| then []
    else
      var end := CutAt(text, start, max);
      [text[start..end]] + Pieces(text, end, max)
  }

  /** The pieces, in order, give the text back. */
  lemma {:induction false} PiecesFlatten(text: string, start: nat, max: nat)
    requires start <= |text| && max > 0
    ensures Flatten(Pieces(text, start, max)) == text[start..]
    decreases |text| - start
  {
    if start < |text| {
      var end := CutAt(text, start, max);
      var ps := Pieces(text, start, max);
      var rest := Pieces(text, end, max);
      assert ps[0] == text[start..end] && ps[1..] == rest;
      PiecesFlatten(text, end, max);
      assert Flatten(ps) == text[start..end] + Flatten(rest);
      assert text[start..] == text[start..end] + text[end..];
    }
  }

  /** Each piece holds between 1 and `max` characters. */
  lemma {:induction false} PiecesBounded(text: string, start: nat, max: nat)
    requires start <= |text| && max > 0
    ensures forall p :: p in Pieces(text, start, max) ==> 0 < |p| <= max
    decreases |text| - start
  {
    if start < |text| {
      var end := CutAt(text, start, max);
      PiecesBounded(text, end, max);
      var ps := Pieces(text, start, max);
      assert ps == [text[start..end]] + Pieces(text, end, max);
    }
  }

  /** The pieces partition the text: in order they give it back, and each
      holds between 1 and `max` characters. */
  lemma PiecesPartition(text: string, start: nat, max: nat)
    requires start <= |text| && max > 0
    ensures Flatten(Pieces(text, start, max)) == text[start..]
    ensures forall p :: p in Pieces(text, start, max) ==> 0 < |p| <= max
  {
    PiecesFlatten(text, start, max);
    PiecesBounded(text, start, max);
  }

  function Trims(ps: seq<string>): (r: seq<string>)
    ensures |r| == |ps|
    ensures forall i :: 0 <= i < |ps| ==> r[i] == Trim(ps[i])
    decreases |ps|
  {
    if |ps| == 0 then []
    else
      var r := [Trim(ps[0])] + Trims(ps[1..]);
      assert forall i :: 1 <= i < |ps| ==> r[i] == Trims(ps[1..])[i - 1] && ps[i] == ps[1..][i - 1];
      r
  }

  /** The chunks `splitTextIntoChunks` returns. */
  function Chunks(text: string, max: nat): seq<string>
    requires max > 0
  {
    Trims(Pieces(text, 0, max))
  }

  lemma PiecesStep(text: string, start: nat, max: nat)
    requires start < |text| && max > 0
    ensures var end := CutAt(text, start, max);
      Trims(Pieces(text, start, max)) == [Trim(text[start..end])] + Trims(Pieces(text, end, max))
  {
    var end := CutAt(text, start, max);
    var ps := Pieces(text, start, max);
    assert ps == [text[start..end]] + Pieces(text, end, max);
    assert ps[0] == text[start..end] && ps[1..] == Pieces(text, end, max);
  }

  /** What the chunks are: one trimmed piece each, at most `max` long; none
      for empty text, and the trimmed text when it fits. */
  lemma ChunksFacts(text: string, max: nat)
    requires max > 0
    ensures |Chunks(text, max)| == |Pieces(text, 0, max)|
    ensures Flatten(Pieces(text, 0, max)) == text
    ensures forall i :: 0 <= i < |Chunks(text, max)| ==> |Chunks(text, max)[i]| <= max
    ensures |text| == 0 ==> Chunks(text, max) == []
    ensures 0 < |text| <= max ==> Chunks(text, max) == [Trim(text)]
  {
    var ps := Pieces(text, 0, max);
    PiecesPartition(text, 0, max);
    assert text[0..] == text;
    forall i | 0 <= i < |ps| ensures |Chunks(text, max)[i]| <= max {
      assert ps[i] in ps;
    }
    if 0 < |text| <= max {
      assert Pieces(text, |text|, max) == [];
      assert text[0..|text|] == text;
      assert ps == [text];
    }
  }

  /** The cut of one loop iteration of `splitTextIntoChunks`, written as
      the source writes it: the piece is non-empty and at most `maxLength`
      long; the last piece runs to the end of the text; any other piece ends
      at the last newline of the window, else at its last space, else after
      exactly `maxLength` characters. It lands where `CutAt` says. */
  method NextCut(text: string, start: nat, maxLength: nat) returns (end: nat)
    requires start < |text| && maxLength > 0
    ensures start < end <= start + maxLength && end <= |text|
    ensures start + maxLength >= |text| ==> end == |text|
    ensures start + maxLength < |text| ==>
      if OccursIn(text, '\n', start, start + maxLength) then
        text[end] == '\n' && !OccursIn(text, '\n', end, start + maxLength)
      else if OccursIn(text, ' ', start, start + maxLength) then
        text[end] == ' ' && !OccursIn(text, ' ', end, start + maxLength)
      else end == start + maxLength
    ensures end == CutAt(text, start, maxLength)
  {
    end := start + maxLength;
    if end < |text| {
      var lastNewline := LastIndexOf(text, '\n', end);
      var lastSpace := LastIndexOf(text, ' ', end);
      if lastNewline > start {
        end := lastNewline;
      } else if lastSpace > start {
        end := lastSpace;
      }
    } else {
      end := |text|;
    }
    if start + maxLength < |text| {
      CutAtPrefers(text, start, maxLength);
    }
  }

  /** `splitTextIntoChunks`: the trimmed pieces, in order (what they are is
      stated by `ChunksFacts`). A `maxLength` of 0 would never advance
      `start`, so it is excluded. */
  method SplitTextIntoChunks(text: string, maxLength: nat) returns (chunks: seq<string>)
    requires maxLength > 0
    ensures chunks == Chunks(text, maxLength)
    ensures forall i :: 0 <= i < |chunks| ==> |chunks[i]| <= maxLength
    ensures |text| == 0 ==> chunks == []
    ensures 0 < |text| <= maxLength ==> chunks == [Trim(text)]
  {
    chunks := [];
    var start := 0;
    while start < |text|
      invariant start <= |text|
      invariant Chunks(text, maxLength) == chunks + Trims(Pieces(text, start, maxLength))
      decreases |text| - start
    {
      var end := NextCut(text, start, maxLength);
      var chunk := Trim(text[start..end]);
      ghost var later := Trims(Pieces(text, end, maxLength));
      assert Trims(Pieces(text, start, maxLength)) == [chunk] + later by {
        PiecesStep(text, start, maxLength);
      }
      AppendAssoc(chunks, [chunk], later);
      chunks := chunks + [chunk];
      start := end;
    }
    assert Pieces(text, start, maxLength) == [];
    assert chunks + [] == chunks;
    ChunksFacts(text, maxLength);
  }

  // ---------------------------------------------------------------------
  // sendLongMessage

  /** The chunk size `sendLongMessage` uses. */
  const MessageLimit := 4000

  /** `sendLongMessage`: chunks are posted in order and the first failed
      post ends the sending. `postOk(i)` is whether the i-th post went
      through. The result is what reached the chat. */
  function SendLongMessage(text: string, postOk: nat -> bool): (sent: seq<string>)
    ensures sent <= Chunks(text, MessageLimit)
    ensures forall i :: 0 <= i < |sent| ==> postOk(i)
    ensures |sent| < |Chunks(text, MessageLimit)| ==> !postOk(|sent|)
  {
    var chunks := Chunks(text, MessageLimit);
    SentFrom(chunks, postOk, 0)
  }

  function SentFrom(chunks: seq<string>, postOk: nat -> bool, i: nat): (sent: seq<string>)
    requires i <= |chunks|
    ensures sent <= chunks[i..]
    ensures forall k :: i <= k < i + |sent| ==> postOk(k)
    ensures |sent| < |chunks| - i ==> !postOk(i + |sent|)
    decreases |chunks| - i
  {
    if i == |chunks| || !postOk(i) then []
    else
      var rest := SentFrom(chunks, postOk, i + 1);
      assert chunks[i..] == [chunks[i]] + chunks[i + 1..];
      [chunks[i]] + rest
  }

  // ---------------------------------------------------------------------
  // mapGender

  const NotSpecified := "Не указано"
  const Men := "Мужчины"
  const Women := "Женщины"

  /** `toLowerCase` on the Latin capitals; no other character lowers to one
      of the letters of "male" or "female", so comparing against those words
      is exact. */
  function LowerChar(c: char): char
  {
    if 'A' <= c <= 'Z' then (c as int + 32) as char else c
  }

  function Lower(s: string): (r: string)
    ensures |r| == |s|
    ensures forall i :: 0 <= i < |s| ==> r[i] == LowerChar(s[i])
  {
    seq(|s|, i requires 0 <= i < |s| => LowerChar(s[i]))
  }

  /** Case-insensitive equality with a lower-case word. */
  predicate SpellsIgnoringCase(s: string, word: string)
  {
    |s| == |word| && forall i :: 0 <= i < |s| ==> (s[i] == word[i] || LowerChar(s[i]) == word[i])
  }

  /** `mapGender`: null or "" reads as "not specified", "male" and "female"
      in any letter case become the Russian group names, anything else is
      shown as stored. */
  function MapGender(gender: Option<string>): (r: string)
    ensures gender == None || gender == Some("") ==> r == NotSpecified
    ensures gender.Some? && SpellsIgnoringCase(gender.value, "male") ==> r == Men
    ensures gender.Some? && SpellsIgnoringCase(gender.value, "female") ==> r == Women
    ensures gender.Some? && gender.value != ""
      && !SpellsIgnoringCase(gender.value, "male") && !SpellsIgnoringCase(gender.value, "female")
      ==> r == gender.value
  {
    if gender == None || gender == Some("") then NotSpecified
    else
      var normalized := Lower(gender.value);
      LowerSpells(gender.value, "male");
      LowerSpells(gender.value, "female");
      if normalized == "male" then Men
      else if normalized == "female" then Women
      else gender.value
  }

  lemma LowerSpells(s: string, word: string)
    requires word == "male" || word == "female"
    ensures Lower(s) == word <==> SpellsIgnoringCase(s, word)
  {
    if SpellsIgnoringCase(s, word) {
      assert forall i :: 0 <= i < |s| ==> LowerChar(s[i]) == word[i];
      assert Lower(s) == word;
    }
  }

  // ---------------------------------------------------------------------
  // The done count and its guard

  /** Members of the channel whose profile is `done`: the `count(*)` of the
      job's first query. */
  function DoneCount(store: Store, ch: ChannelId, members: seq<MemberRow>): nat
    decreases |members|
  {
    if |members| == 0 then 0
    else
      var m := members[0];
      var hit := m.channelId == ch && m.userId in store.profiles
        && store.profiles[m.userId].status == Some(StatusDone);
      (if hit then 1 else 0) + DoneCount(store, ch, members[1..])
  }

  lemma {:induction false} DoneCountZero(store: Store, ch: ChannelId, members: seq<MemberRow>)
    ensures DoneCount(store, ch, members) == 0 <==>
      forall m :: m in members ==>
        !(m.channelId == ch && m.userId in store.profiles && store.profiles[m.userId].status == Some(StatusDone))
    decreases |members|
  {
    if |members| > 0 {
      DoneCountZero(store, ch, members[1..]);
      assert forall x :: x in members <==> x == members[0] || x in members[1..] by {
        assert members == [members[0]] + members[1..];
      }
    }
  }

  /** A JavaScript value as far as the guard needs it. */
  datatype JsValue = JsNumber(n: int) | JsString(s: string) | JsUndefined

  function Truthy(v: JsValue): bool
  {
    match v
    case JsNumber(n) => n != 0
    case JsString(s) => s != ""
    case JsUndefined => false
  }

  /** `a || b` */
  function JsOr(a: JsValue, b: JsValue): JsValue
  {
    if Truthy(a) then a else b
  }

  function Digit(d: nat): char
    requires d < 10
  {
    "0123456789"[d]
  }

  function DigitValue(c: char): nat
  {
    if '0' <= c <= '9' then c as int - '0' as int else 0
  }

  /** The decimal text of a count, as the Postgres driver returns a
      `bigint` column. */
  function Decimal(n: nat): (s: string)
    ensures |s| > 0
    ensures forall i :: 0 <= i < |s| ==> '0' <= s[i] <= '9'
    decreases n
  {
    if n < 10 then [Digit(n)] else Decimal(n / 10) + [Digit(n % 10)]
  }

  /** `Number(s)` on a string of decimal digits. */
  function ParseDecimal(s: string): nat
    decreases |s|
  {
    if |s| == 0 then 0 else ParseDecimal(s[..|s| - 1]) * 10 + DigitValue(s[|s| - 1])
  }

  lemma {:induction false} ParseDecimalRoundTrip(n: nat)
    ensures ParseDecimal(Decimal(n)) == n
    decreases n
  {
    if n < 10 {
      assert Decimal(n)[..0] == [];
    } else {
      ParseDecimalRoundTrip(n / 10);
      var s := Decimal(n);
      assert s[..|s| - 1] == Decimal(n / 10);
      assert s[|s| - 1] == Digit(n % 10);
    }
  }

  /** `Number(v)` for the values the guard can see. */
  function ToNumber(v: JsValue): int
  {
    match v
    case JsNumber(n) => n
    case JsString(s) => ParseDecimal(s)
    case JsUndefined => 0
  }

  /** The guard as written: `count = total[0]?.count || 0` then
      `count === 0`, with `count` the driver's decimal text. A non-empty
      string is truthy and never strictly equal to a number, so the guard
      is false for every count. */
  function NoProfilesGuardAsWritten(done: nat): (fires: bool)
  {
    JsOr(JsString(Decimal(done)), JsNumber(0)) == JsNumber(0)
  }

  /** The guard never fires, in particular not when nothing is `done`. */
  lemma AsWrittenGuardNeverFires(done: nat)
    ensures !NoProfilesGuardAsWritten(done)
  {
    assert Truthy(JsString(Decimal(done)));
  }

  /** The counterexample: a channel with no `done` profile. */
  lemma AsWrittenGuardMissesEmptyChannel()
    ensures DoneCount(Store(map[], map[], []), 0, []) == 0
    ensures !NoProfilesGuardAsWritten(0)
  {
    AsWrittenGuardNeverFires(0);
  }

  /** The guard as intended, comparing the number: `Number(count) === 0`,
      which the monitor does with its own count. */
  function NoProfilesGuard(done: nat): (fires: bool)
    ensures fires <==> done == 0
  {
    var count := JsOr(JsString(Decimal(done)), JsNumber(0));
    ParseDecimalRoundTrip(done);
    ToNumber(count) == 0
  }

  // ---------------------------------------------------------------------
  // The report latch

  /** `update channels set report_text, report_generated_at where id = ch
      and report_generated_at is null returning id`: the new table and
      the number of rows returned. */
  function MarkReportGenerated(channels: map<ChannelId, Channel>, ch: ChannelId, text: string, now: Time)
    : (r: (map<ChannelId, Channel>, nat))
    ensures r.1 <= 1
    ensures r.1 == 1 <==> ch in channels && channels[ch].reportGeneratedAt == None
    ensures r.1 == 0 ==> r.0 == channels
    ensures r.0.Keys == channels.Keys
    ensures forall c :: c in channels && c != ch ==> r.0[c] == channels[c]
    ensures r.1 == 1 ==> r.0[ch] == channels[ch].(reportText := Some(text), reportGeneratedAt := Some(now))
  {
    if ch in channels && channels[ch].reportGeneratedAt == None then
      (channels[ch := channels[ch].(reportText := Some(text), reportGeneratedAt := Some(now))], 1)
    else (channels, 0)
  }

  /** The latch is one-way: a set latch and its text survive every later
      attempt, and the second of two attempts affects no row. */
  lemma LatchOnce(channels: map<ChannelId, Channel>, ch: ChannelId, t1: string, n1: Time, t2: string, n2: Time)
    ensures var (after1, _) := MarkReportGenerated(channels, ch, t1, n1);
      var (after2, rows2) := MarkReportGenerated(after1, ch, t2, n2);
      rows2 == 0 && after2 == after1
  {
  }

  // ---------------------------------------------------------------------
  // The job

  /** The footer appended to the model's text. */
  const Footer := "\n\n\U{1F4CE} ПРИЛОЖЕНИЯ\n- CSV-файл с полным анализом каждого пользователя"

  /** What the job gets from outside: the statistics header it composes from
      SQL aggregates, the model's reply (`None` when it has no content),
      whether the CSV upload succeeded (it throws otherwise), which message
      posts succeed, and the clock. */
  datatype ReportInputs = ReportInputs(
    header: string,
    completion: Option<string>,
    csvSent: bool,
    postOk: nat -> bool,
    now: Time)

  datatype ReportOutcome = ChannelMissing | NoProfiles | EmptyCompletion | CsvFailed | AlreadyGenerated | Saved

  /** The run's end, the channels table after it, and the message chunks
      that reached the chat. */
  datatype ReportRun = ReportRun(outcome: ReportOutcome, channels: map<ChannelId, Channel>, sent: seq<string>)

  /** The text the job sends and stores. */
  function FinalText(header: string, reportText: string): string
  {
    header + reportText + Footer
  }

  /** Whether the run reaches the delivery step. */
  predicate Delivers(o: ReportOutcome)
  {
    o == CsvFailed || o == AlreadyGenerated || o == Saved
  }

  /** The job after its two early exits: stop on an empty completion;
      otherwise send the report text, then the CSV (a failed upload throws
      and ends the run), then try the compare-and-set. Delivery comes before
      the latch, so a run that loses the race has still delivered. */
  function Deliver(store: Store, ch: ChannelId, inp: ReportInputs): (r: ReportRun)
    ensures r.outcome == EmptyCompletion <==> inp.completion == None || Trim(inp.completion.value) == []
    ensures r.outcome == EmptyCompletion || Delivers(r.outcome)
    ensures Delivers(r.outcome) ==>
      inp.completion.Some? && Trim(inp.completion.value) != []
      && r.sent == SendLongMessage(FinalText(inp.header, Trim(inp.completion.value)), inp.postOk)
    ensures r.outcome == EmptyCompletion ==> r.sent == []
    ensures r.outcome == CsvFailed <==> Delivers(r.outcome) && !inp.csvSent
    ensures r.outcome == Saved <==>
      Delivers(r.outcome) && inp.csvSent && ch in store.channels && store.channels[ch].reportGeneratedAt == None
    ensures r.outcome == Saved ==>
      inp.completion.Some? && ch in store.channels
      && r.channels == store.channels[ch := store.channels[ch].(
           reportText := Some(FinalText(inp.header, Trim(inp.completion.value))),
           reportGeneratedAt := Some(inp.now))]
    ensures r.outcome != Saved ==> r.channels == store.channels
  {
    if inp.completion == None || Trim(inp.completion.value) == [] then
      ReportRun(EmptyCompletion, store.channels, [])
    else
      var finalText := FinalText(inp.header, Trim(inp.completion.value));
      var sent := SendLongMessage(finalText, inp.postOk);
      if !inp.csvSent then ReportRun(CsvFailed, store.channels, sent)
      else
        var (channels', updated) := MarkReportGenerated(store.channels, ch, finalText, inp.now);
        if updated == 0 then ReportRun(AlreadyGenerated, store.channels, sent)
        else ReportRun(Saved, channels', sent)
  }

  /** `generateFinalChannelReport`, with the guard on the done count as
      intended. */
  function GenerateFinalChannelReport(store: Store, ch: ChannelId, inp: ReportInputs): (r: ReportRun)
    ensures r.outcome == ChannelMissing <==> ch !in store.channels
    ensures r.outcome == NoProfiles <==> ch in store.channels && DoneCount(store, ch, store.members) == 0
    ensures r.outcome == EmptyCompletion <==>
      ch in store.channels && DoneCount(store, ch, store.members) > 0
      && (inp.completion == None || Trim(inp.completion.value) == [])
    ensures Delivers(r.outcome) <==>
      ch in store.channels && DoneCount(store, ch, store.members) > 0
      && inp.completion.Some? && Trim(inp.completion.value) != []
    ensures !Delivers(r.outcome) ==> r.sent == [] && r.channels == store.channels
    ensures Delivers(r.outcome) ==>
      inp.completion.Some? && Trim(inp.completion.value) != []
      && r.sent == SendLongMessage(FinalText(inp.header, Trim(inp.completion.value)), inp.postOk)
    ensures r.outcome == CsvFailed <==> Delivers(r.outcome) && !inp.csvSent
    ensures r.outcome == Saved <==>
      Delivers(r.outcome) && inp.csvSent && ch in store.channels && store.channels[ch].reportGeneratedAt == None
    ensures r.outcome == Saved ==>
      inp.completion.Some? && ch in store.channels
      && r.channels == store.channels[ch := store.channels[ch].(
           reportText := Some(FinalText(inp.header, Trim(inp.completion.value))),
           reportGeneratedAt := Some(inp.now))]
    ensures r.outcome != Saved ==> r.channels == store.channels
    ensures r.channels.Keys == store.channels.Keys
    ensures forall c :: c in store.channels && store.channels[c].reportGeneratedAt.Some? ==>
      r.channels[c] == store.channels[c]
  {
    if ch !in store.channels then ReportRun(ChannelMissing, store.channels, [])
    else if NoProfilesGuard(DoneCount(store, ch, store.members)) then ReportRun(NoProfiles, store.channels, [])
    else Deliver(store, ch, inp)
  }

  /** The job as written: the same steps behind the guard that never fires,
      so no run ends for lack of `done` profiles. */
  function GenerateFinalChannelReportAsWritten(store: Store, ch: ChannelId, inp: ReportInputs): (r: ReportRun)
    ensures r.outcome == ChannelMissing <==> ch !in store.channels
    ensures r.outcome != NoProfiles
    ensures ch in store.channels && inp.completion.Some? && Trim(inp.completion.value) != [] ==> Delivers(r.outcome)
  {
    if ch !in store.channels then ReportRun(ChannelMissing, store.channels, [])
    else if NoProfilesGuardAsWritten(DoneCount(store, ch, store.members)) then ReportRun(NoProfiles, store.channels, [])
    else Deliver(store, ch, inp)
  }

  /** The two jobs differ only on a channel with no `done` profile: the
      corrected one stops there, the one as written delivers a report over
      no profiles and, when the CSV goes out and the latch is free, stores
      it. */
  lemma AsWrittenJobReportsEmptyChannel(store: Store, ch: ChannelId, inp: ReportInputs)
    requires ch in store.channels && DoneCount(store, ch, store.members) == 0
    requires inp.completion.Some? && Trim(inp.completion.value) != []
    requires inp.csvSent && store.channels[ch].reportGeneratedAt == None
    ensures GenerateFinalChannelReport(store, ch, inp).outcome == NoProfiles
    ensures GenerateFinalChannelReportAsWritten(store, ch, inp).outcome == Saved
  {
    AsWrittenGuardNeverFires(0);
  }

  /** Wherever some profile is `done`, or the channel is missing, the job as
      written and the corrected one agree. */
  lemma AsWrittenAgreesOtherwise(store: Store, ch: ChannelId, inp: ReportInputs)
    requires ch !in store.channels || DoneCount(store, ch, store.members) > 0
    ensures GenerateFinalChannelReportAsWritten(store, ch, inp) == GenerateFinalChannelReport(store, ch, inp)
  {
    AsWrittenGuardNeverFires(DoneCount(store, ch, store.members));
  }

  /** Two runs on the same channel: once the first has saved its report, the
      second one ends as "already generated" (after delivering again) or
      earlier, and the stored report is the first one's. */
  lemma SecondRunKeepsFirstReport(store: Store, ch: ChannelId, inp1: ReportInputs, inp2: ReportInputs)
    requires GenerateFinalChannelReport(store, ch, inp1).outcome == Saved
    ensures var r1 := GenerateFinalChannelReport(store, ch, inp1);
      var r2 := GenerateFinalChannelReport(store.(channels := r1.channels), ch, inp2);
      r2.outcome != Saved && r2.channels == r1.channels
  {
  }
}

=== FILE: schema.dfy ===
/** The relational tables behind the pipeline: `channels`, `user_profiles`
    and `channel_members`, with their keys and column defaults, and the
    "insert, ignore conflict" statements the crawler issues against them.

    `channels` also carries `parsing_complete`, `report_generated_at` and
    `report_text`: the tasks read and write these columns although the table
    declaration does not list them. */
module Schema {
  import opened Common

  type UserId = nat
  type ChannelId = int
  /** A point in time as the clock reports it (`new Date()`). */
  type Time = nat

  const StatusPending := "pending"
  const StatusDone := "done"
  const StatusNoData := "no_data"

  /** `summarization_status` is a nullable text column; both NULL and
      "pending" count as not yet summarised. */
  predicate IsPending(status: Option<string>)
  {
    status == None || status == Some(StatusPending)
  }

  /** The two statuses after which the summariser leaves a profile alone. */
  predicate IsTerminal(status: Option<string>)
  {
    status == Some(StatusDone) || status == Some(StatusNoData)
  }

  datatype Channel = Channel(
    id: ChannelId,
    username: string,
    title: Option<string>,
    membersCount: Option<int>,
    isPublic: Option<bool>,
    parsingComplete: Option<bool>,
    reportGeneratedAt: Option<Time>,
    reportText: Option<string>)

  /** The columns the summariser fills in from the model's structured answer. */
  datatype Traits = Traits(
    gender: Option<string>,
    ageGroup: Option<string>,
    country: Option<string>,
    language: Option<string>,
    interests: Option<seq<string>>,
    tone: Option<string>,
    languageLevel: Option<string>,
    likelyProfession: Option<string>,
    summary: Option<string>,
    personaCluster: Option<string>,
    personaProbability: Option<real>)

  const NoTraits := Traits(None, None, None, None, None, None, None, None, None, None, None)

  /** A `user_profiles` row; keyed by `user_id` alone, so one profile is
      shared by every channel the user belongs to. */
  datatype Profile = Profile(
    userId: UserId,
    username: Option<string>,
    firstName: Option<string>,
    lastName: Option<string>,
    traits: Traits,
    isSummarized: Option<bool>,
    summarizedAt: Option<Time>,
    status: Option<string>)

  /** The values the crawler supplies when it inserts a profile. */
  datatype ProfileRow = ProfileRow(
    userId: UserId,
    username: Option<string>,
    firstName: Option<string>,
    lastName: Option<string>)

  /** A `channel_members` row; (channel_id, user_id) is its primary key. */
  datatype MemberRow = MemberRow(channelId: ChannelId, userId: UserId)

  datatype Store = Store(
    channels: map<ChannelId, Channel>,
    profiles: map<UserId, Profile>,
    members: seq<MemberRow>)

  /** The primary key of `channel_members` holds: no pair appears twice. */
  predicate Unique(t: seq<MemberRow>)
  {
    forall i, j :: 0 <= i < j < |t| ==> t[i] != t[j]
  }

  function MemberSet(t: seq<MemberRow>): set<MemberRow>
  {
    set m | m in t
  }

  function RowIds(rows: seq<ProfileRow>): set<UserId>
  {
    set row | row in rows :: row.userId
  }

  /** A freshly inserted profile: the supplied columns plus the column
      defaults (`is_summarized` false, `summarized_at` NULL, status "pending"). */
  function NewProfile(row: ProfileRow): (p: Profile)
    ensures p.userId == row.userId
    ensures p.status == Some(StatusPending) && IsPending(p.status)
    ensures p.isSummarized == Some(false) && p.summarizedAt == None
    ensures p.traits == NoTraits
  {
    Profile(row.userId, row.username, row.firstName, row.lastName, NoTraits, Some(false), None, Some(StatusPending))
  }

  /** `insert into user_profiles values rows on conflict do nothing`: rows are
      taken in order and a row whose key is already present (in the table or
      earlier in the same statement) is skipped. */
  function InsertProfiles(m: map<UserId, Profile>, rows: seq<ProfileRow>): (r: map<UserId, Profile>)
    ensures r.Keys == m.Keys + RowIds(rows)
    ensures forall id :: id in m ==> r[id] == m[id]
    ensures forall id :: id in r && id !in m ==> r[id].status == Some(StatusPending)
    ensures forall id :: id in r && id !in m ==> r[id].isSummarized == Some(false) && r[id].summarizedAt == None
    decreases |rows|
  {
    if |rows| == 0 then m
    else
      var row := rows[0];
      var m' := if row.userId in m then m else m[row.userId := NewProfile(row)];
      assert RowIds(rows) == {row.userId} + RowIds(rows[1..]) by {
        assert rows == [row] + rows[1..];
      }
      InsertProfiles(m', rows[1..])
  }

  /** `insert into channel_members values rows on conflict do nothing`. */
  function InsertMembers(t: seq<MemberRow>, rows: seq<MemberRow>): (r: seq<MemberRow>)
    ensures t <= r
    ensures forall k :: |t| <= k < |r| ==> r[k] !in t
    ensures MemberSet(r) == MemberSet(t) + MemberSet(rows)
    ensures Unique(t) ==> Unique(r)
    decreases |rows|
  {
    if |rows| == 0 then t
    else
      var t' := if rows[0] in t then t else t + [rows[0]];
      assert MemberSet(rows) == {rows[0]} + MemberSet(rows[1..]) by {
        assert rows == [rows[0]] + rows[1..];
      }
      InsertMembers(t', rows[1..])
  }

  /** Inserting ids that are all present already changes nothing. */
  lemma {:induction false} InsertProfilesKnown(m: map<UserId, Profile>, rows: seq<ProfileRow>)
    requires RowIds(rows) <= m.Keys
    ensures InsertProfiles(m, rows) == m
    decreases |rows|
  {
    if |rows| > 0 {
      assert rows[0] in rows;
      assert RowIds(rows[1..]) <= RowIds(rows) by {
        forall id | id in RowIds(rows[1..]) ensures id in RowIds(rows) {
          var row :| row in rows[1..] && row.userId == id;
          assert row in rows;
        }
      }
      InsertProfilesKnown(m, rows[1..]);
    }
  }

  /** Running the same profile insert twice leaves the rows a single run leaves. */
  lemma InsertProfilesIdempotent(m: map<UserId, Profile>, rows: seq<ProfileRow>)
    ensures InsertProfiles(InsertProfiles(m, rows), rows) == InsertProfiles(m, rows)
  {
    InsertProfilesKnown(InsertProfiles(m, rows), rows);
  }

  lemma {:induction false} InsertMembersKnown(t: seq<MemberRow>, rows: seq<MemberRow>)
    requires MemberSet(rows) <= MemberSet(t)
    ensures InsertMembers(t, rows) == t
    decreases |rows|
  {
    if |rows| > 0 {
      assert rows[0] in MemberSet(rows);
      assert rows[0] in t;
      assert MemberSet(rows[1..]) <= MemberSet(rows) by {
        forall x | x in MemberSet(rows[1..]) ensures x in MemberSet(rows) {
          assert x in rows[1..];
        }
      }
      InsertMembersKnown(t, rows[1..]);
    }
  }

  /** Re-inserting (channel, user) pairs that exist is a no-op. */
  lemma InsertMembersIdempotent(t: seq<MemberRow>, rows: seq<MemberRow>)
    ensures InsertMembers(InsertMembers(t, rows), rows) == InsertMembers(t, rows)
  {
    InsertMembersKnown(InsertMembers(t, rows), rows);
  }

  lemma {:induction false} InsertProfilesAppend(m: map<UserId, Profile>, a: seq<ProfileRow>, b: seq<ProfileRow>)
    ensures InsertProfiles(m, a + b) == InsertProfiles(InsertProfiles(m, a), b)
    decreases |a|
  {
    if |a| > 0 {
      assert (a + b)[0] == a[0];
      assert (a + b)[1..] == a[1..] + b;
      var m' := if a[0].userId in m then m else m[a[0].userId := NewProfile(a[0])];
      InsertProfilesAppend(m', a[1..], b);
    } else {
      assert a + b == b;
    }
  }

  lemma {:induction false} InsertMembersAppend(t: seq<MemberRow>, a: seq<MemberRow>, b: seq<MemberRow>)
    ensures InsertMembers(t, a + b) == InsertMembers(InsertMembers(t, a), b)
    decreases |a|
  {
    if |a| > 0 {
      assert (a + b)[0] == a[0];
      assert (a + b)[1..] == a[1..] + b;
      var t' := if a[0] in t then t else t + [a[0]];
      InsertMembersAppend(t', a[1..], b);
    } else {
      assert a + b == b;
    }
  }

  /** One insert statement per batch, in order: the same rows as a single
      statement over the whole batch. */
  function InsertProfileBatches(m: map<UserId, Profile>, batches: seq<seq<ProfileRow>>): (r: map<UserId, Profile>)
    ensures r == InsertProfiles(m, Flatten(batches))
    decreases |batches|
  {
    if |batches| == 0 then m
    else
      var m' := InsertProfiles(m, batches[0]);
      InsertProfilesAppend(m, batches[0], Flatten(batches[1..]));
      InsertProfileBatches(m', batches[1..])
  }

  function InsertMemberBatches(t: seq<MemberRow>, batches: seq<seq<MemberRow>>): (r: seq<MemberRow>)
    ensures r == InsertMembers(t, Flatten(batches))
    decreases |batches|
  {
    if |batches| == 0 then t
    else
      var t' := InsertMembers(t, batches[0]);
      InsertMembersAppend(t, batches[0], Flatten(batches[1..]));
      InsertMemberBatches(t', batches[1..])
  }
}

=== FILE: search.dfy ===
/** Member search as the crawler sees it, and the paging loop `parseQuery`
    of src/trigger/jobs/parseMembersTask.ts (the copy in
    src/services/parseAndSaveMembers.ts is the same code).

    The participants search is a function from (query, offset) to the
    response the service gives; `Failed` stands for an exception raised while
    handling that page — by the search call or by the insert transaction,
    which is atomic, so a failed page writes nothing. */
module Search {
  import opened Common
  import opened Schema

  /** Page size asked of the search (`limit`). */
  const PageLimit := 100
  /** Rows per insert statement (`INSERT_BATCH_SIZE`). */
  const InsertBatchSize := 100

  datatype User = User(id: UserId, username: Option<string>, firstName: Option<string>, lastName: Option<string>)

  /** One element of a response's `users`: an `Api.User`, or another kind of
      user object (such as `Api.UserEmpty`) that the crawler skips. */
  datatype Entry = UserEntry(user: User) | OtherEntry

  /** `Participants` is `Api.channels.ChannelParticipants`; `NotModified` is
      any other response kind. */
  datatype Response = Participants(users: seq<Entry>) | NotModified | Failed

  type SearchApi = (string, nat) -> Response

  /** The `Api.User` entries of a page, in order. */
  function Users(entries: seq<Entry>): (r: seq<User>)
    ensures forall u :: u in r <==> UserEntry(u) in entries
    ensures |r| <= |entries|
    decreases |entries|
  {
    if |entries| == 0 then []
    else
      var rest := Users(entries[1..]);
      assert entries == [entries[0]] + entries[1..];
      match entries[0]
      case UserEntry(u) => [u] + rest
      case OtherEntry => rest
  }

  /** The users of a page whose id has not been seen in this run. */
  function NewUsers(entries: seq<Entry>, seen: set<UserId>): (r: seq<User>)
    ensures forall u :: u in r <==> UserEntry(u) in entries && u.id !in seen
    decreases |entries|
  {
    if |entries| == 0 then []
    else
      var rest := NewUsers(entries[1..], seen);
      assert entries == [entries[0]] + entries[1..];
      match entries[0]
      case UserEntry(u) => if u.id in seen then rest else [u] + rest
      case OtherEntry => rest
  }

  function Ids(users: seq<User>): set<UserId>
  {
    set u | u in users :: u.id
  }

  /** Ids of the `Api.User` entries of a page. */
  function PageIds(entries: seq<Entry>): set<UserId>
  {
    set e | e in entries && e.UserEntry? :: e.user.id
  }

  lemma NewUserIds(entries: seq<Entry>, seen: set<UserId>)
    ensures Ids(NewUsers(entries, seen)) == PageIds(entries) - seen
  {
    var added := NewUsers(entries, seen);
    forall id | id in PageIds(entries) - seen ensures id in Ids(added) {
      var e :| e in entries && e.UserEntry? && e.user.id == id;
      assert UserEntry(e.user) == e;
      assert e.user in added;
    }
  }

  lemma UserIds(entries: seq<Entry>)
    ensures Ids(Users(entries)) == PageIds(entries)
  {
    forall id | id in PageIds(entries) ensures id in Ids(Users(entries)) {
      var e :| e in entries && e.UserEntry? && e.user.id == id;
      assert UserEntry(e.user) == e;
      assert e.user in Users(entries);
    }
  }

  function AllIds(pages: seq<seq<Entry>>): set<UserId>
  {
    if |pages| == 0 then {} else PageIds(pages[0]) + AllIds(pages[1..])
  }

  /** Raw length of all pages, non-user entries included. */
  function TotalLength(pages: seq<seq<Entry>>): nat
  {
    if |pages| == 0 then 0 else |pages[0]| + TotalLength(pages[1..])
  }

  predicate SomeFullPage(pages: seq<seq<Entry>>)
  {
    exists i :: 0 <= i < |pages| && |pages[i]| >= PageLimit
  }

  lemma SomeFullPageCons(e: seq<Entry>, rest: seq<seq<Entry>>)
    ensures SomeFullPage([e] + rest) <==> |e| >= PageLimit || SomeFullPage(rest)
  {
    var pages := [e] + rest;
    assert pages[0] == e;
    if SomeFullPage(rest) {
      var i :| 0 <= i < |rest| && |rest[i]| >= PageLimit;
      assert pages[i + 1] == rest[i];
    }
    if SomeFullPage(pages) {
      var i :| 0 <= i < |pages| && |pages[i]| >= PageLimit;
      if i > 0 {
        assert rest[i - 1] == pages[i];
        assert SomeFullPage(rest);
      }
    }
  }

  /** Each page is what the search returned for `q` at the offset reached by
      adding the raw lengths of the pages before it to `offset`. */
  predicate Fetched(api: SearchApi, q: string, offset: nat, pages: seq<seq<Entry>>)
    decreases |pages|
  {
    |pages| == 0 ||
    (api(q, offset) == Participants(pages[0]) && Fetched(api, q, offset + |pages[0]|, pages[1..]))
  }

  lemma FetchedCons(api: SearchApi, q: string, offset: nat, e: seq<Entry>, rest: seq<seq<Entry>>)
    ensures Fetched(api, q, offset, [e] + rest)
        <==> api(q, offset) == Participants(e) && Fetched(api, q, offset + |e|, rest)
  {
    assert ([e] + rest)[0] == e && ([e] + rest)[1..] == rest;
  }

  /** Each page held at least one user not seen before it; the seen set grows
      by every page's ids. */
  predicate EachHadNewUsers(pages: seq<seq<Entry>>, seen: set<UserId>)
    decreases |pages|
  {
    |pages| == 0 ||
    (NewUsers(pages[0], seen) != [] && EachHadNewUsers(pages[1..], seen + PageIds(pages[0])))
  }

  function MemberOf(ch: ChannelId, ids: set<UserId>): set<MemberRow>
  {
    set id | id in ids :: MemberRow(ch, id)
  }

  /** `after` is `before` with exactly the users `ids` added to `ch`: every
      existing row is kept as it was, a profile is created (status "pending")
      for each id without one, and each (ch, id) membership is present,
      appended only when it was not there before. */
  predicate SavedExactly(before: Store, after: Store, ch: ChannelId, ids: set<UserId>)
  {
    && after.channels == before.channels
    && after.profiles.Keys == before.profiles.Keys + ids
    && (forall id :: id in before.profiles ==> after.profiles[id] == before.profiles[id])
    && (forall id :: id in after.profiles && id !in before.profiles ==> after.profiles[id].status == Some(StatusPending))
    && before.members <= after.members
    && (forall k :: |before.members| <= k < |after.members| ==> after.members[k] !in before.members)
    && MemberSet(after.members) == MemberSet(before.members) + MemberOf(ch, ids)
    && (Unique(before.members) ==> Unique(after.members))
  }

  /** Saving no users leaves the store as it was. */
  lemma SavedNothing(before: Store, after: Store, ch: ChannelId)
    requires SavedExactly(before, after, ch, {})
    ensures after == before
  {
    assert MemberOf(ch, {}) == {};
    assert after.profiles == before.profiles;
    var added := after.members[|before.members|..];
    assert after.members == before.members + added;
    assert forall x :: x in added ==> x in MemberSet(after.members) && x !in before.members;
    FirstIn(added);
    assert added == [];
  }

  lemma SavedExactlyTrans(a: Store, b: Store, c: Store, ch: ChannelId, x: set<UserId>, y: set<UserId>)
    requires SavedExactly(a, b, ch, x) && SavedExactly(b, c, ch, y)
    ensures SavedExactly(a, c, ch, x + y)
  {
    assert MemberOf(ch, x + y) == MemberOf(ch, x) + MemberOf(ch, y);
  }

  function ProfileRows(users: seq<User>): (r: seq<ProfileRow>)
    ensures RowIds(r) == Ids(users)
    decreases |users|
  {
    if |users| == 0 then []
    else
      var u := users[0];
      assert users == [u] + users[1..];
      var rest := ProfileRows(users[1..]);
      assert RowIds([ProfileRow(u.id, u.username, u.firstName, u.lastName)] + rest)
          == {u.id} + RowIds(rest);
      [ProfileRow(u.id, u.username, u.firstName, u.lastName)] + rest
  }

  function MemberRows(ch: ChannelId, users: seq<User>): (r: seq<MemberRow>)
    ensures MemberSet(r) == MemberOf(ch, Ids(users))
    decreases |users|
  {
    if |users| == 0 then []
    else
      var u := users[0];
      assert users == [u] + users[1..];
      var rest := MemberRows(ch, users[1..]);
      assert MemberSet([MemberRow(ch, u.id)] + rest) == {MemberRow(ch, u.id)} + MemberSet(rest);
      assert Ids(users) == {u.id} + Ids(users[1..]);
      [MemberRow(ch, u.id)] + rest
  }

  /** The insert transaction for one page: profiles then memberships, each in
      statements of at most `InsertBatchSize` rows, all insert-ignore. */
  function SaveUsers(store: Store, ch: ChannelId, users: seq<User>): (r: Store)
    ensures SavedExactly(store, r, ch, Ids(users))
  {
    Store(store.channels,
          InsertProfileBatches(store.profiles, Chunk(ProfileRows(users), InsertBatchSize)),
          InsertMemberBatches(store.members, Chunk(MemberRows(ch, users), InsertBatchSize)))
  }

  /** Why paging for one query ended. `Threw` is an exception, which the
      crawler of these two files does not catch. `OutOfFuel` is the model's
      bound on the number of pages and has no counterpart in the source. */
  datatype StopReason = NotParticipants | NoNewUsers | ShortPage | Threw | OutOfFuel

  /** The pages processed (inserted) for one query, with the run's seen set,
      the store and the escalation flag afterwards. */
  datatype QueryRun = QueryRun(pages: seq<seq<Entry>>, seen: set<UserId>, store: Store, escalate: bool, stop: StopReason)

  /** The condition that ended paging, in terms of the response at the next
      offset. */
  predicate StoppedBecause(api: SearchApi, q: string, next: nat, r: QueryRun, fuel: nat)
  {
    && (r.stop == NotParticipants ==> api(q, next) == NotModified)
    && (r.stop == Threw ==> api(q, next) == Failed)
    && (r.stop == NoNewUsers ==> api(q, next).Participants? && NewUsers(api(q, next).users, r.seen) == [])
    && (r.stop == ShortPage ==> |r.pages| > 0 && |r.pages[|r.pages| - 1]| < PageLimit)
    && (|r.pages| > 0 && |r.pages[|r.pages| - 1]| < PageLimit ==> r.stop == ShortPage)
    && (r.stop == OutOfFuel ==> |r.pages| == fuel)
  }

  /** Everything one call of the paging loop guarantees about its run `r`:
      `r.seen` is the old seen set plus the ids on the processed pages; the
      flag is set iff it was set or some processed page was full; each page
      came from the search at the offset advanced by the raw lengths before
      it; each held a user not seen before it; every page but the last was
      full; the store gained exactly the unseen users; and paging stopped for
      the recorded reason. */
  predicate RunFacts(api: SearchApi, q: string, ch: ChannelId, offset: nat, seen: set<UserId>,
                     store: Store, escalate: bool, fuel: nat, r: QueryRun)
  {
    RunPaging(api, q, offset, seen, escalate, fuel, r) && SavedExactly(store, r.store, ch, r.seen - seen)
  }

  /** The paging side of `RunFacts`: everything but the store. */
  predicate RunPaging(api: SearchApi, q: string, offset: nat, seen: set<UserId>,
                      escalate: bool, fuel: nat, r: QueryRun)
  {
    && r.seen == seen + AllIds(r.pages)
    && (r.escalate <==> escalate || SomeFullPage(r.pages))
    && Fetched(api, q, offset, r.pages)
    && EachHadNewUsers(r.pages, seen)
    && (forall i :: 0 <= i < |r.pages| - 1 ==> |r.pages[i]| >= PageLimit)
    && StoppedBecause(api, q, offset + TotalLength(r.pages), r, fuel)
  }

  lemma ExtendSeen(seen: set<UserId>, entries: seq<Entry>, restPages: seq<seq<Entry>>, restSeen: set<UserId>)
    requires restSeen == seen + PageIds(entries) + AllIds(restPages)
    ensures restSeen == seen + AllIds([entries] + restPages)
  {
    var pages := [entries] + restPages;
    assert pages[0] == entries && pages[1..] == restPages;
  }

  lemma EachHadNewUsersCons(e: seq<Entry>, rest: seq<seq<Entry>>, seen: set<UserId>)
    ensures EachHadNewUsers([e] + rest, seen)
        <==> NewUsers(e, seen) != [] && EachHadNewUsers(rest, seen + PageIds(e))
  {
    assert ([e] + rest)[0] == e && ([e] + rest)[1..] == rest;
  }

  lemma ExtendFull(entries: seq<Entry>, restPages: seq<seq<Entry>>)
    requires |entries| >= PageLimit
    requires forall i :: 0 <= i < |restPages| - 1 ==> |restPages[i]| >= PageLimit
    ensures forall i :: 0 <= i < |[entries] + restPages| - 1 ==> |([entries] + restPages)[i]| >= PageLimit
  {
    var pages := [entries] + restPages;
    forall i | 0 <= i < |pages| - 1 ensures |pages[i]| >= PageLimit {
      if i > 0 {
        assert pages[i] == restPages[i - 1];
      }
    }
  }

  lemma ExtendSaved(store: Store, store': Store, restStore: Store, ch: ChannelId,
                    seen: set<UserId>, entries: seq<Entry>, restSeen: set<UserId>)
    requires SavedExactly(store, store', ch, Ids(NewUsers(entries, seen)))
    requires SavedExactly(store', restStore, ch, restSeen - (seen + PageIds(entries)))
    requires seen + PageIds(entries) <= restSeen
    ensures SavedExactly(store, restStore, ch, restSeen - seen)
  {
    NewUserIds(entries, seen);
    SavedExactlyTrans(store, store', restStore, ch, Ids(NewUsers(entries, seen)), restSeen - (seen + PageIds(entries)));
    assert Ids(NewUsers(entries, seen)) + (restSeen - (seen + PageIds(entries))) == restSeen - seen;
  }

  lemma ExtendStop(api: SearchApi, q: string, offset: nat, fuel: nat, entries: seq<Entry>, rest: QueryRun)
    requires fuel > 0
    requires |entries| >= PageLimit
    requires StoppedBecause(api, q, offset + |entries| + TotalLength(rest.pages), rest, fuel - 1)
    ensures StoppedBecause(api, q, offset + TotalLength([entries] + rest.pages),
                           QueryRun([entries] + rest.pages, rest.seen, rest.store, rest.escalate, rest.stop), fuel)
  {
    var pages := [entries] + rest.pages;
    assert pages[0] == entries && pages[1..] == rest.pages;
    assert TotalLength(pages) == |entries| + TotalLength(rest.pages);
    if |rest.pages| > 0 {
      assert pages[|pages| - 1] == rest.pages[|rest.pages| - 1];
    }
  }

  /** The paging facts of a full page with new users put in front of the
      run from the next offset. */
  lemma ExtendPaging(api: SearchApi, q: string, offset: nat, seen: set<UserId>,
                     escalate: bool, fuel: nat, entries: seq<Entry>, rest: QueryRun)
    requires fuel > 0 && api(q, offset) == Participants(entries)
    requires NewUsers(entries, seen) != [] && |entries| >= PageLimit
    requires RunPaging(api, q, offset + |entries|, seen + PageIds(entries), true, fuel - 1, rest)
    ensures RunPaging(api, q, offset, seen, escalate, fuel,
                      QueryRun([entries] + rest.pages, rest.seen, rest.store, rest.escalate, rest.stop))
  {
    var r := QueryRun([entries] + rest.pages, rest.seen, rest.store, rest.escalate, rest.stop);
    assert r.seen == seen + AllIds(r.pages) by {
      ExtendSeen(seen, entries, rest.pages, rest.seen);
    }
    assert r.escalate <==> escalate || SomeFullPage(r.pages) by {
      SomeFullPageCons(entries, rest.pages);
    }
    assert Fetched(api, q, offset, r.pages) by {
      FetchedCons(api, q, offset, entries, rest.pages);
    }
    assert EachHadNewUsers(r.pages, seen) by {
      EachHadNewUsersCons(entries, rest.pages, seen);
    }
    assert forall i :: 0 <= i < |r.pages| - 1 ==> |r.pages[i]| >= PageLimit by {
      ExtendFull(entries, rest.pages);
    }
    assert StoppedBecause(api, q, offset + TotalLength(r.pages), r, fuel) by {
      ExtendStop(api, q, offset, fuel, entries, rest);
    }
  }

  /** The loop's step for a full page with new users: the run from the next
      offset, with this page put in front, satisfies `RunFacts` from here. */
  lemma ExtendRun(api: SearchApi, q: string, ch: ChannelId, offset: nat, seen: set<UserId>,
                  store: Store, escalate: bool, fuel: nat, entries: seq<Entry>, store': Store, rest: QueryRun)
    requires fuel > 0 && api(q, offset) == Participants(entries)
    requires NewUsers(entries, seen) != [] && |entries| >= PageLimit
    requires SavedExactly(store, store', ch, Ids(NewUsers(entries, seen)))
    requires RunFacts(api, q, ch, offset + |entries|, seen + PageIds(entries), store', true, fuel - 1, rest)
    ensures RunFacts(api, q, ch, offset, seen, store, escalate, fuel,
                     QueryRun([entries] + rest.pages, rest.seen, rest.store, rest.escalate, rest.stop))
  {
    ExtendPaging(api, q, offset, seen, escalate, fuel, entries, rest);
    ExtendSeen(seen, entries, rest.pages, rest.seen);
    ExtendSaved(store, store', rest.store, ch, seen, entries, rest.seen);
  }

  /** The loop's step for a short page with new users: it is the last page. */
  lemma LastPageRun(api: SearchApi, q: string, ch: ChannelId, offset: nat, seen: set<UserId>,
                    store: Store, escalate: bool, fuel: nat, entries: seq<Entry>)
    requires fuel > 0 && api(q, offset) == Participants(entries)
    requires NewUsers(entries, seen) != [] && |entries| < PageLimit
    ensures RunFacts(api, q, ch, offset, seen, store, escalate, fuel,
                     QueryRun([entries], seen + PageIds(entries), SaveUsers(store, ch, NewUsers(entries, seen)), escalate, ShortPage))
  {
    var pages := [entries];
    assert pages[0] == entries && pages[1..] == [];
    FetchedCons(api, q, offset, entries, []);
    assert [entries] + [] == pages;
    assert AllIds(pages) == PageIds(entries);
    assert TotalLength(pages) == |entries|;
    assert !SomeFullPage(pages);
    NewUserIds(entries, seen);
    assert seen + PageIds(entries) - seen == Ids(NewUsers(entries, seen));
  }

  /** The `while (true)` loop of `parseQuery` from `offset` on, with at most
      `fuel` further pages. */
  function ParseQueryFrom(api: SearchApi, q: string, ch: ChannelId, offset: nat, seen: set<UserId>,
                          store: Store, escalate: bool, fuel: nat): (r: QueryRun)
    ensures RunFacts(api, q, ch, offset, seen, store, escalate, fuel, r)
    decreases fuel
  {
    if fuel == 0 then QueryRun([], seen, store, escalate, OutOfFuel)
    else
      match api(q, offset)
      case Failed => QueryRun([], seen, store, escalate, Threw)
      case NotModified => QueryRun([], seen, store, escalate, NotParticipants)
      case Participants(entries) =>
        var newUsers := NewUsers(entries, seen);
        if |newUsers| == 0 then QueryRun([], seen, store, escalate, NoNewUsers)
        else
          var seen' := seen + PageIds(entries);
          var store' := SaveUsers(store, ch, newUsers);
          if |entries| < PageLimit then
            LastPageRun(api, q, ch, offset, seen, store, escalate, fuel, entries);
            QueryRun([entries], seen', store', escalate, ShortPage)
          else
            var rest := ParseQueryFrom(api, q, ch, offset + |entries|, seen', store', true, fuel - 1);
            ExtendRun(api, q, ch, offset, seen, store, escalate, fuel, entries, store', rest);
            QueryRun([entries] + rest.pages, rest.seen, rest.store, rest.escalate, rest.stop)
  }

  /** `parseQuery({q, seen, ...})`: paging from offset 0 with the flag clear. */
  function ParseQuery(api: SearchApi, q: string, ch: ChannelId, seen: set<UserId>, store: Store, fuel: nat): (r: QueryRun)
    ensures RunFacts(api, q, ch, 0, seen, store, false, fuel, r)
    ensures r.seen == seen + AllIds(r.pages)
    ensures r.escalate <==> SomeFullPage(r.pages)
    ensures Fetched(api, q, 0, r.pages)
    ensures EachHadNewUsers(r.pages, seen)
    ensures SavedExactly(store, r.store, ch, r.seen - seen)
    ensures StoppedBecause(api, q, TotalLength(r.pages), r, fuel)
  {
    ParseQueryFrom(api, q, ch, 0, seen, store, false, fuel)
  }
}

=== FILE: summarize.dfy ===
/** The summariser of src/trigger/jobs/summarizeUserBatch.ts: the greedy
    token-budget packing of a user's message history, the status
    transitions of one user's summarisation, and the batch task that runs
    every user of its payload with failures isolated per user.

    The message-history query, the language model and the tokenizer are
    outside calls; they are the parameters bundled in `Oracles`. */
module Summarize {
  import opened Common
  import opened Schema

  /** Default token budget of the packed history. */
  const MaxTokens := 8000

  /** `{ userId, username }`, one entry of a batch payload. */
  datatype UserRef = UserRef(userId: UserId, username: Option<string>)

  function PayloadIds(users: seq<UserRef>): set<UserId>
  {
    set u | u in users :: u.userId
  }

  /** A row of the message-history query. */
  datatype MessageRow = MessageRow(text: string, channelName: string)

  /** `{ channel, text }`, the unit the model receives. */
  datatype Item = Item(channel: string, text: string)

  function ToItem(row: MessageRow): Item
  {
    Item(row.channelName, row.text)
  }

  function Items(rows: seq<MessageRow>): (r: seq<Item>)
    ensures |r| == |rows|
    ensures forall i :: 0 <= i < |rows| ==> r[i] == ToItem(rows[i])
  {
    seq(|rows|, i requires 0 <= i < |rows| => ToItem(rows[i]))
  }

  /** Token count of an item's JSON text. */
  type Cost = Item -> nat

  function TotalCost(cost: Cost, items: seq<Item>): nat
  {
    if |items| == 0 then 0 else cost(items[0]) + TotalCost(cost, items[1..])
  }

  lemma {:induction false} TotalCostAppend(cost: Cost, a: seq<Item>, b: seq<Item>)
    ensures TotalCost(cost, a + b) == TotalCost(cost, a) + TotalCost(cost, b)
    decreases |a|
  {
    if |a| == 0 {
      assert a + b == b;
    } else {
      assert (a + b)[0] == a[0];
      assert (a + b)[1..] == a[1..] + b;
      TotalCostAppend(cost, a[1..], b);
    }
  }

  /** Costs are never negative, so a longer prefix never costs less. */
  lemma TotalCostPrefix(cost: Cost, items: seq<Item>, j: nat, k: nat)
    requires j <= k <= |items|
    ensures TotalCost(cost, items[..j]) <= TotalCost(cost, items[..k])
  {
    assert items[..k] == items[..j] + items[j..k];
    TotalCostAppend(cost, items[..j], items[j..k]);
  }

  /** Items are taken in order while the running total stays within the
      budget; the first item that would overflow it ends the packing, and
      nothing after it is considered. */
  function Packed(cost: Cost, items: seq<Item>, budget: nat): (r: seq<Item>)
    ensures r <= items
    ensures TotalCost(cost, r) <= budget
    ensures |r| < |items| ==> TotalCost(cost, r) + cost(items[|r|]) > budget
    ensures TotalCost(cost, items) <= budget ==> r == items
    decreases |items|
  {
    if |items| == 0 then []
    else if cost(items[0]) > budget then []
    else
      var rest := Packed(cost, items[1..], budget - cost(items[0]));
      var r := [items[0]] + rest;
      assert r[1..] == rest;
      assert |r| < |items| ==> items[|r|] == items[1..][|rest|];
      r
  }

  /** The packing is the longest prefix within the budget: no longer prefix
      fits. */
  lemma PackedIsLongestFit(cost: Cost, items: seq<Item>, budget: nat, k: nat)
    requires k <= |items| && TotalCost(cost, items[..k]) <= budget
    ensures k <= |Packed(cost, items, budget)|
  {
    var r := Packed(cost, items, budget);
    if k > |r| {
      assert items[..|r|] == r;
      assert items[..|r| + 1] == r + [items[|r|]];
      TotalCostAppend(cost, r, [items[|r|]]);
      assert TotalCost(cost, [items[|r|]]) == cost(items[|r|]) by {
        assert [items[|r|]][1..] == [];
      }
      TotalCostPrefix(cost, items, |r| + 1, k);
    }
  }

  /** A prefix that fits but cannot take its next item: a longer prefix
      would need that item, so none fits. */
  lemma StuckIsLongestFit(cost: Cost, items: seq<Item>, budget: nat, n: nat, k: nat)
    requires n < |items| && TotalCost(cost, items[..n]) + cost(items[n]) > budget
    requires n < k <= |items|
    ensures TotalCost(cost, items[..k]) > budget
  {
    assert items[..n + 1] == items[..n] + [items[n]];
    TotalCostAppend(cost, items[..n], [items[n]]);
    assert TotalCost(cost, [items[n]]) == cost(items[n]) by {
      assert [items[n]][1..] == [];
    }
    TotalCostPrefix(cost, items, n + 1, k);
  }

  /** Fitting and stopping at the first overflow pin the packing down. */
  lemma PackedUnique(cost: Cost, items: seq<Item>, budget: nat, r: seq<Item>)
    requires r <= items && TotalCost(cost, r) <= budget
    requires |r| < |items| ==> TotalCost(cost, r) + cost(items[|r|]) > budget
    ensures r == Packed(cost, items, budget)
  {
    var p := Packed(cost, items, budget);
    assert items[..|r|] == r && items[..|p|] == p;
    PackedIsLongestFit(cost, items, budget, |r|);
    if |r| < |p| {
      StuckIsLongestFit(cost, items, budget, |r|, |p|);
    }
  }

  /** `limitStructuredInput`: the loop with its running total and `break`. */
  method LimitStructuredInput(rows: seq<MessageRow>, cost: Cost, maxTokens: nat) returns (result: seq<Item>)
    ensures result <= Items(rows)
    ensures TotalCost(cost, result) <= maxTokens
    ensures |result| < |rows| ==> TotalCost(cost, result) + cost(ToItem(rows[|result|])) > maxTokens
    ensures TotalCost(cost, Items(rows)) <= maxTokens ==> result == Items(rows)
    ensures result == Packed(cost, Items(rows), maxTokens)
  {
    ghost var items := Items(rows);
    result := [];
    var total := 0;
    var i := 0;
    while i < |rows|
      invariant 0 <= i <= |rows|
      invariant result == items[..i]
      invariant total == TotalCost(cost, result) && total <= maxTokens
    {
      var item := Item(rows[i].channelName, rows[i].text);
      var tokens := cost(item);
      if total + tokens > maxTokens {
        break;
      }
      assert items[..i + 1] == result + [item];
      TotalCostAppend(cost, result, [item]);
      assert TotalCost(cost, [item]) == tokens by {
        assert [item][1..] == [];
      }
      result := result + [item];
      total := total + tokens;
      i := i + 1;
    }
    PackedUnique(cost, items, maxTokens, result);
  }

  /** The fields of the model's structured answer. */
  datatype Answer = Answer(
    gender: string,
    ageGroup: string,
    country: Option<string>,
    language: Option<string>,
    interests: seq<string>,
    tone: string,
    languageLevel: string,
    likelyProfession: string,
    personaCluster: Option<string>,
    personaProbability: Option<real>,
    summary: string)

  function AnswerTraits(a: Answer): Traits
  {
    Traits(Some(a.gender), Some(a.ageGroup), a.country, a.language, Some(a.interests), Some(a.tone),
           Some(a.languageLevel), Some(a.likelyProfession), Some(a.summary), a.personaCluster, a.personaProbability)
  }

  /** The result of an outside query that may throw. */
  datatype Fetch<T> = Got(value: T) | Threw

  /** What one summarisation consults: the profile read and the final
      update of the user's row (`false` when that database call throws), the
      history query, the model (`None` when the call throws or yields no
      parsed answer), the tokenizer and the clock. */
  datatype Oracles = Oracles(
    readOk: UserId -> bool,
    updateOk: UserId -> bool,
    history: UserId -> Fetch<seq<MessageRow>>,
    reply: seq<Item> -> Option<Answer>,
    cost: Cost,
    now: Time)

  /** The model's input for a non-empty history. */
  function Prompt(o: Oracles, rows: seq<MessageRow>): seq<Item>
  {
    Packed(o.cost, Items(rows), MaxTokens)
  }

  /** The row after the "no history" update. */
  function MarkNoData(p: Profile, now: Time): Profile
  {
    p.(status := Some(StatusNoData), summarizedAt := Some(now))
  }

  /** The row after the successful update. */
  function MarkDone(p: Profile, a: Answer, now: Time): Profile
  {
    p.(traits := AnswerTraits(a), isSummarized := Some(true), status := Some(StatusDone), summarizedAt := Some(now))
  }

  /** Whether a run for a pending user writes anything: every outside call
      on its path went through. */
  predicate Writes(o: Oracles, userId: UserId)
  {
    var h := o.history(userId);
    o.readOk(userId) && h.Got? && (h.value == [] || o.reply(Prompt(o, h.value)).Some?) && o.updateOk(userId)
  }

  /** `summarizeOneUser`. A row already `done` or `no_data` is left alone;
      an empty history marks it `no_data`; a model answer marks it `done`
      with the answer's fields; any exception (the profile read, the history
      query, the model call or the update itself) is swallowed and writes
      nothing. An update of a missing row affects nothing. */
  function SummarizeOneUser(profiles: map<UserId, Profile>, userId: UserId, o: Oracles): (r: map<UserId, Profile>)
    ensures r.Keys == profiles.Keys
    ensures forall id :: id in profiles && id != userId ==> r[id] == profiles[id]
    ensures r != profiles <==>
      userId in profiles && !IsTerminal(profiles[userId].status) && Writes(o, userId)
    ensures r != profiles ==> IsTerminal(r[userId].status) && r[userId].summarizedAt == Some(o.now)
    ensures userId in profiles ==>
      var (before, after) := (profiles[userId], r[userId]);
      after.userId == before.userId && after.username == before.username
      && after.firstName == before.firstName && after.lastName == before.lastName
    ensures r != profiles && r[userId].status == Some(StatusNoData) ==>
      o.history(userId) == Got([])
      && r[userId].traits == profiles[userId].traits && r[userId].isSummarized == profiles[userId].isSummarized
    ensures r != profiles && r[userId].status == Some(StatusDone) ==>
      o.history(userId).Got? && o.history(userId).value != []
      && r[userId].isSummarized == Some(true)
      && o.reply(Prompt(o, o.history(userId).value)).Some?
      && r[userId].traits == AnswerTraits(o.reply(Prompt(o, o.history(userId).value)).value)
  {
    if userId !in profiles || !o.readOk(userId) then profiles
    else
      var p := profiles[userId];
      if IsTerminal(p.status) then profiles
      else
        match o.history(userId)
        case Threw => profiles
        case Got(rows) =>
          if |rows| == 0 then
            if !o.updateOk(userId) then profiles
            else
              assert MarkNoData(p, o.now).status != p.status;
              profiles[userId := MarkNoData(p, o.now)]
          else
            match o.reply(Prompt(o, rows))
            case None => profiles
            case Some(a) =>
              if !o.updateOk(userId) then profiles
              else
                assert MarkDone(p, a, o.now).status != p.status;
                profiles[userId := MarkDone(p, a, o.now)]
  }

  /** A run reads nothing but its own row: two tables that agree on that row
      get the same new row. */
  lemma OneUserLocal(p1: map<UserId, Profile>, p2: map<UserId, Profile>, userId: UserId, o: Oracles)
    requires userId in p1 && userId in p2 && p1[userId] == p2[userId]
    ensures SummarizeOneUser(p1, userId, o)[userId] == SummarizeOneUser(p2, userId, o)[userId]
  {
  }

  /** Once a run has written a user's row, no later run writes it again,
      whatever the outside calls then return. */
  lemma WrittenOnce(profiles: map<UserId, Profile>, userId: UserId, o1: Oracles, o2: Oracles)
    requires SummarizeOneUser(profiles, userId, o1) != profiles
    ensures var p1 := SummarizeOneUser(profiles, userId, o1);
      SummarizeOneUser(p1, userId, o2) == p1
  {
  }

  /** The batch task: every payload entry gets its own run, in payload order,
      and a run that fails leaves the others untouched. */
  function SummarizeUserBatch(profiles: map<UserId, Profile>, users: seq<UserRef>, o: Oracles): (r: map<UserId, Profile>)
    ensures r.Keys == profiles.Keys
    ensures forall id :: id in profiles && id !in PayloadIds(users) ==> r[id] == profiles[id]
    ensures forall id :: id in profiles ==>
      r[id] == profiles[id] || (!IsTerminal(profiles[id].status) && IsTerminal(r[id].status))
    decreases |users|
  {
    if |users| == 0 then profiles
    else
      var next := SummarizeOneUser(profiles, users[0].userId, o);
      assert PayloadIds(users) == {users[0].userId} + PayloadIds(users[1..]) by {
        assert users == [users[0]] + users[1..];
      }
      SummarizeUserBatch(next, users[1..], o)
  }

  /** Per-user isolation: each payload user ends with exactly the row a run
      for that user alone would give, whatever the other entries do and
      however often the user is repeated. */
  lemma {:induction false} BatchIsolation(profiles: map<UserId, Profile>, users: seq<UserRef>, o: Oracles, id: UserId)
    requires id in profiles && id in PayloadIds(users)
    ensures SummarizeUserBatch(profiles, users, o)[id] == SummarizeOneUser(profiles, id, o)[id]
    decreases |users|
  {
    var u := users[0].userId;
    var next := SummarizeOneUser(profiles, u, o);
    assert users == [users[0]] + users[1..];
    assert PayloadIds(users) == {u} + PayloadIds(users[1..]);
    if id in PayloadIds(users[1..]) {
      BatchIsolation(next, users[1..], o, id);
      if u == id {
        if next != profiles {
          WrittenOnce(profiles, id, o, o);
        }
      } else {
        OneUserLocal(next, profiles, id, o);
      }
    } else {
      assert u == id;
    }
  }
}
